=== FILE: README.md ===
# DubCraft Studio core, modelled in Dafny

DubCraft Studio is a desktop application that dubs a video into another
language. It extracts the audio, transcribes it, translates the transcript,
detects speakers, synthesises a voice per segment and merges the new track
back into the video. This project models the pure logic at the heart of that
pipeline and proves properties of it:

- **Timestamp.dfy**: `format_timestamp` and `parse_timestamp` of the SubRip
  (SRT) subtitle format. Times are `real` seconds. The formatter follows
  Python's float floor division, `%`, `int()` truncation and `f"{n:02}"`
  padding, including for negative times.
- **Subtitles.dfy**: `generate_srt` as a string builder and `parse_srt` as a
  string splitter. The splitter includes an exact model of
  `re.split(r"\n\s*\n", …)`, `str.strip`, `str.split` and `str.join`.
  Before splitting, `parse_srt` reads the file in text mode, which turns
  `\r\n` and a lone `\r` into `\n` (`ReadText`).
- **Utils.dfy**: the second copy of `format_timestamp`.
- **Languages.dfy** and **Translation.dfy**: the twelve-entry language table,
  the lookup with its English fallback, and translation that falls back to
  its input. The translation engine is a function parameter.
- **Speech.dfy**: `synthesize_speech`, `preview_voice` and
  `batch_synthesize_speech`. The speech engine is a parameter, `None` when
  the library is missing.
- **VideoFiles.dfy**: `is_video_file`, following POSIX `os.path.splitext`
  and `str.lower`, plus the drop, drag and dialog selection of the upload
  widget and `handle_drag_event`.
- **Dubbing.dfy**: the dubbing worker. It covers:
  - the per-segment speaker, text, voice and emotion;
  - the progress formula;
  - the order in which clips are joined;
  - how the voice and emotion dictionaries are gathered from the voice panel.
- **MainWindow.dfy**: the audio-extraction worker, and the handlers that run
  when each worker finishes. Each handler is a pure step over a window
  state. It also models the chain of stages those handlers form:
  extract → transcribe → translate → diarize → synthesize → merge.
  The diarization handler rebuilds the voice panel for the new speaker
  list and reads it straight away. Every freshly filled row shows its first
  voice and `Neutral`, so those are the choices the dubbing worker receives
  for every speaker.

Python dictionaries are association lists that keep insertion order. An
exception is `None`, or a `Malformed` outcome.

## Model

| member | source | states |
|---|---|---|
| Strings.Strip | core/subtitles.py:39 | `str.strip` leaves no white space at either end and leaves a trimmed string as it is |
| Strings.StripSpec | core/subtitles.py:39 | `str.strip` returns the slice of its input between the leading and the trailing white space, and only white space lies outside that slice |
| Strings.StripAvoids | core/subtitles.py:39 | stripping adds no character, so a piece without newlines stays without them |
| Strings.JoinSplit | core/subtitles.py:39-43 | joining the pieces of `s.split(sep)` with `sep` gives `s` back |
| Strings.SplitJoin | core/subtitles.py:68-69 | splitting `sep.join(parts)` gives the parts back when none holds the separator's first character |
| Strings.ParseInt | core/subtitles.py:70 | `int()` of a non-empty run of ASCII digits is its decimal value |
| Timestamp.ClockOfMillis | core/subtitles.py:57-63 | every whole number of milliseconds has a well-formed hours/minutes/seconds/milliseconds split with that total |
| Timestamp.ClockUnique | core/subtitles.py:57-63 | two well-formed splits with the same total are equal, so the split is unique |
| Timestamp.SplitSeconds | core/subtitles.py:59-62 | for a non-negative time the four fields are well formed and total floor(1000·t) milliseconds |
| Timestamp.SplitSecondsBounds | core/subtitles.py:59-62 | for every time, minutes and seconds lie in [0, 60) and milliseconds in (-1000, 1000); milliseconds are non-negative for t ≥ 0 |
| Timestamp.FloatModRange | core/subtitles.py:60-61 | Python's float `%` by a positive divisor lies in [0, divisor) |
| Timestamp.SplitSecondsFields | core/subtitles.py:59-62 | the float formulas give h = ⌊t⌋ div 3600, m = (⌊t⌋ mod 3600) div 60, s = ⌊t⌋ mod 60, ms = ⌊1000·t⌋ − 1000·⌊t⌋ |
| Timestamp.FormatTimestamp | core/subtitles.py:57-63 | below 100 hours the output has the shape `DD:DD:DD,DDD` |
| Timestamp.FormatTimestampMillis | core/subtitles.py:57-63 | the output is the rendering of the millisecond split of floor(1000·t) |
| Timestamp.RenderShape | core/subtitles.py:63 | a well-formed split with fewer than 100 hours renders as `DD:DD:DD,DDD` |
| Timestamp.FormatChars | core/subtitles.py:63 | a non-negative time renders with digits, colons and a comma only |
| Timestamp.ParseRender | core/subtitles.py:66-70 | parsing a rendered split gives h·3600 + m·60 + s + ms/1000 |
| Timestamp.RenderFields | core/subtitles.py:68-69 | the `:` split of a rendering gives the three padded fields, and the `,` split of the last gives seconds and milliseconds |
| Timestamp.ParseFormat | core/subtitles.py:57-70 | parsing the formatted time gives the time truncated to whole milliseconds |
| Timestamp.ParseFormatExact | core/subtitles.py:57-70 | for a whole number of milliseconds, parsing the formatted time gives the time back |
| Timestamp.TruncationBound | core/subtitles.py:62 | the time read back lies within one millisecond below the original |
| Timestamp.FormatClock | core/subtitles.py:57-63 | any well-formed split with the right total renders to the formatted text |
| Timestamp.FormatZero | core/subtitles.py:63 | 0 formats as `00:00:00,000` |
| Timestamp.FormatHourMinuteSecond | core/subtitles.py:63 | 3661.25 formats as `01:01:01,250` |
| Timestamp.FormatNegative | core/subtitles.py:59-63 | −1.5 formats as `-1:59:58,-500` (floor division and Python's sign-aware padding) |
| Timestamp.ParsePadInt | core/subtitles.py:70 | `int()` reads back any integer printed with `f"{n:0w}"`, negative ones included |
| Timestamp.ParseRenderAny | core/subtitles.py:66-70 | parsing the rendering of any split, with negative fields too, gives h·3600 + m·60 + s + ms/1000 |
| Timestamp.NegativeRereadsShifted | core/subtitles.py:57-70 | −1.5 formats as `-1:59:58,-500`, which parses back as −2.5, one second earlier |
| Utils.FormatTimestamp | core/utils.py:7-13 | the second copy agrees with the subtitles formatter on every input |
| Utils.FormatShape | core/utils.py:13 | below 100 hours the second copy prints `DD:DD:DD,DDD` |
| Utils.FieldsBounded | core/utils.py:10-13 | minutes and seconds are below 60, milliseconds below 1000 in magnitude, and printed with three characters for t ≥ 0 |
| Subtitles.SpeakerPrefix | core/subtitles.py:20-25 | the `[name] ` prefix is non-empty iff the name map is non-empty and holds the segment's speaker, and then carries that name |
| Subtitles.BlockOf | core/subtitles.py:17-26 | block i is `i`, newline, the two formatted times around ` --> `, newline, prefix and text, blank line |
| Subtitles.GenerateSrtEmpty | core/subtitles.py:17-26 | no segments write nothing |
| Subtitles.GenerateSrtAppend | core/subtitles.py:17-26 | one more segment appends exactly its block, numbered one past the previous count |
| Subtitles.ConcatHead | core/subtitles.py:26 | generated text is empty or starts with a digit |
| Subtitles.ReadText | core/subtitles.py:35-36 | the text-mode read leaves no carriage return in the content |
| Subtitles.ReadTextPlain | core/subtitles.py:35-36 | content without a carriage return is read unchanged |
| Subtitles.ReadTextReturn | core/subtitles.py:35-36 | a lone `\r` is read as `\n`, and the text before it is kept |
| Subtitles.ReadTextCrLf | core/subtitles.py:35-36 | `\r\n` is read as a single `\n`, and the text before it is kept |
| Subtitles.SplitBlocks | core/subtitles.py:37 | `re.split(r"\n\s*\n")` always yields at least one piece |
| Subtitles.FirstMatchSkip | core/subtitles.py:37 | a stretch without a blank line cannot hold the first separator match |
| Subtitles.BlankLineMatch | core/subtitles.py:37 | two newlines followed by a non-space character match as a separator ending there |
| Subtitles.NoMatchBeforeSolid | core/subtitles.py:37 | no separator match starts where a non-space character precedes the next newline |
| Subtitles.SplitBlocksBody | core/subtitles.py:37 | a body without blank lines, followed by a blank line and more text, is cut off as the first piece |
| Subtitles.ParseBlocks | core/subtitles.py:38-51 | parsing never yields more cues than there are pieces |
| Subtitles.OneLineSkipped | core/subtitles.py:40 | a piece of one line is skipped, since it has fewer than three lines |
| Subtitles.TwoLinesSkipped | core/subtitles.py:39-40 | a piece of two lines with no white space at its ends is skipped |
| Subtitles.SplitTwoLineBlock | core/subtitles.py:37 | a two-line piece followed by three newlines splits into that piece and an empty one |
| Subtitles.EmptyLineBlock | core/subtitles.py:17-26 | a segment whose text line is empty is written as its index line, its time line and three newlines |
| Subtitles.EmptyTextDropped | core/subtitles.py:7-54 | a segment whose text line is empty (no text and no speaker prefix), with non-negative times, is written but reads back as no cue |
| Subtitles.ParseLines | core/subtitles.py:39-51 | a piece whose stripped lines have a well-formed time line gives the cue with lines 3 onward joined by spaces |
| Subtitles.ParseTwoTextLines | core/subtitles.py:43 | two text lines are joined with a single space |
| Subtitles.ParseBlocksStops | core/subtitles.py:34-53 | a malformed piece ends parsing and keeps the cues before it |
| Subtitles.ParseBlocksAppend | core/subtitles.py:38-51 | parsing splits over concatenation when the first part holds no malformed piece |
| Subtitles.ParseEntryBody | core/subtitles.py:39-51 | a written block with a single-line text parses back to its cue |
| Subtitles.SplitEntry | core/subtitles.py:26-37 | a written block is split off the generated text as one piece |
| Subtitles.ParseConcat | core/subtitles.py:26-51 | parsing the concatenation of readable blocks gives their cues in order |
| Subtitles.BlockAvoidsReturn | core/subtitles.py:26 | a written block holds no carriage return when its text line holds none |
| Subtitles.ConcatAvoidsReturn | core/subtitles.py:17-26 | the written file holds no carriage return when no text line holds one |
| Subtitles.ParseGenerate | core/subtitles.py:7-54 | for segments with non-negative times and a single-line text line holding no carriage return, parsing the generated SRT gives one cue per segment with the same times, truncated to milliseconds, and the same prefixed text |
| Languages.FindFrom | core/translation.py:17 | the first position of a key; absent iff no entry carries it |
| Languages.LookupAt | core/translation.py:17 | in a table with distinct keys, a key finds the value beside it |
| Languages.TableSize | core/constants.py:3-16 | the table has 12 entries and English, with code `en`, comes first |
| Languages.CodesAreCodes | core/constants.py:4-15 | every code is two lower-case ASCII letters |
| Languages.NamesDistinct | core/constants.py:3-16 | no display name appears twice |
| Languages.CodesDistinct | core/constants.py:4-15 | no code appears twice |
| Languages.LanguageCode | core/translation.py:15-17 | the result is always one of the table's codes |
| Languages.CodeOfListed | core/translation.py:17 | a listed name gets its own code |
| Languages.CodeOfUnlisted | core/translation.py:17 | an unlisted name, or none, gets `en` |
| Languages.NameOfCode | core/constants.py:3-16 | the table reads backwards: each code names one language, which maps back to it |
| Translation.TranslateText | core/translation.py:6-13 | the engine's answer for the table code, or the input text when it raises |
| Translation.BatchTranslate | core/translation.py:19-28 | the engine's list for the table code, or the input list when it raises |
| Translation.FailingServiceIsIdentity | core/translation.py:6-28 | a failing engine leaves the text, and the list element by element, unchanged |
| Translation.ServiceSeesTableCode | core/translation.py:9-21 | the engine is only asked for one of the table's two-letter codes |
| Speech.SynthesizeSpeech | core/tts.py:20-36 | a missing library raises; otherwise the clip comes from the text and the voice |
| Speech.EmotionIgnored | core/tts.py:20-36 | the engine is asked for the same text and voice whatever the emotion |
| Speech.PreviewVoice | core/tts.py:38-44 | the preview speaks the fixed sample sentence in the given voice |
| Speech.EmotionRule | core/tts.py:53 | position i has an emotion iff the list is given and reaches i, and then it is `emotions[i]` |
| Speech.RequestsFrom | core/tts.py:52-54 | one call per pair of `zip(texts, voices)`, in order, with the emotion of its position |
| Speech.RunAllSpec | core/tts.py:51-56 | the batch returns iff every call succeeds, then one path per call in call order |
| Speech.BatchPaths | core/tts.py:46-56 | a successful batch returns min(\|texts\|, \|voices\|) paths, path i from text i and voice i |
| Speech.BatchCalls | core/tts.py:52-54 | call i carries text i, voice i and the emotion of position i |
| Speech.BatchEmpty | core/tts.py:51-56 | no texts or no voices give an empty result, even without the library |
| Speech.BatchUnavailable | core/tts.py:25-26 | without the library a batch with something to say raises |
| VideoFiles.Extension | ui/file_upload.py:47 | the `splitext` extension is empty or starts with a dot |
| VideoFiles.ExtensionShape | ui/file_upload.py:47 | the extension is a suffix holding no further dot or slash |
| VideoFiles.ExtensionOfName | ui/file_upload.py:47 | a name with an ordinary stem gets everything from its last dot |
| VideoFiles.UpperCaseAccepted | ui/file_upload.py:46-47 | `clip.MP4` is a video |
| VideoFiles.LastExtensionAccepted | ui/file_upload.py:46-47 | `a.txt.mp4` is a video |
| VideoFiles.InnerExtensionIgnored | ui/file_upload.py:46-47 | `a.mp4.txt` is not a video |
| VideoFiles.NoExtensionRejected | ui/file_upload.py:46-47 | `movie`, `.mp4` and `clips.mp4/movie` are not videos |
| VideoFiles.FilterVideos | modules/dragdrop.py:8-16 | every returned path is a video and there are no more of them than inputs |
| VideoFiles.FilterVideosSpec | modules/dragdrop.py:12-15 | the result is an order-preserving subsequence holding every video path and nothing else |
| VideoFiles.FilterVideosAppend | modules/dragdrop.py:12-15 | filtering splits over concatenation |
| VideoFiles.FilterVideosIdempotent | modules/dragdrop.py:12-15 | filtering twice is filtering once |
| VideoFiles.FilterVideosEmpty | modules/dragdrop.py:10-16 | no URLs give no paths |
| VideoFiles.DropSelection | ui/file_upload.py:32-38 | a drop emits at most one path, a video among the dropped ones |
| VideoFiles.DropIsFirstVideo | ui/file_upload.py:24-38 | the drop emits the first video in drop order, and drag-enter is accepted iff the drop would emit one |
| VideoFiles.DialogSelection | ui/file_upload.py:40-44 | the dialog emits iff the path is non-empty, and then that path |
| Dubbing.PutSpec | ui/main_window.py:457-458 | `d[k] = v` reads back v at k, leaves every other key alone and keeps keys distinct |
| Dubbing.GatherSpec | ui/main_window.py:451-458 | each panel label reads back the voice and emotion of its last row; labels without a row keep their old value |
| Dubbing.DefaultSpeakers | ui/main_window.py:442 | the speaker list after diarization is never empty, and is the found list when that is non-empty |
| Dubbing.ChoicesSpec | ui/main_window.py:125-128 | the speaker is the segment's own, else the first listed, else `Speaker 1`; the text is the translation, else the original |
| Dubbing.DefaultSpeakerListed | ui/main_window.py:125-127 | a segment without a speaker of its own is spoken by a listed speaker |
| Dubbing.PanelLabels | ui/main_window.py:358-364 | one row label per speaker, `str(speaker)`, or two placeholders when there are none |
| Dubbing.AsWrittenFailsForListedSpeaker | ui/main_window.py:129-136 | as written, a listed speaker's voice lookup always raises |
| Dubbing.AsWrittenCounterexample | ui/main_window.py:129-136 | one speaker with a voice assigned by name: as written it raises, as intended it gets that voice |
| Dubbing.EmotionAsWrittenSpec | ui/main_window.py:137 | as written, the emotion lookup raises exactly for a span-record speaker, and for a named speaker agrees with the lookup by label |
| Dubbing.EmotionAsWrittenCounterexample | ui/main_window.py:137 | a lone span-record speaker whose voice is found by label: as written its emotion lookup raises, as intended it gets the panel's emotion |
| Dubbing.ResolveVoiceSpec | ui/main_window.py:129-136 | as intended, a voice is found iff any voice is assigned; a voice assigned to the label wins; the answer is always an assigned voice |
| Dubbing.IntendedUsesPanelChoice | ui/main_window.py:129-137 | as intended, each listed speaker is dubbed with the voice and emotion read from its own panel row (both looked up by label), when no two rows share a label |
| Dubbing.PanelVoices | ui/main_window.py:359 | each row offers the window's voice list, or `Voice A`, `Voice B` and `Voice C` when it is empty, so the offer is never empty |
| Dubbing.GatherUniform | ui/main_window.py:451-458 | when every row carries the same voice, every entry of the gathered voice dictionary holds that voice |
| Dubbing.DubProgressSpec | ui/main_window.py:140 | progress after segment i of n lies in [70, 90], never decreases, and is 90 after the last |
| Dubbing.LoopSpec | ui/main_window.py:124-140 | a completed loop holds, for each segment in order, the clip of its request and its progress value |
| Dubbing.DubRunFinished | ui/main_window.py:120-148 | a finished run emitted non-decreasing progress in [70, 90] ending in 90, one clip per segment in order, and exported iff the transcript is non-empty |
| Dubbing.ProgressSequence | ui/main_window.py:121-147 | 70, the per-segment values and the final 90 together are non-decreasing, within [70, 90] and end at 90 |
| Dubbing.DubRunLoop | ui/main_window.py:120-148 | a run finishes only after its loop completed, and then reports that loop's progress and clips |
| Dubbing.IntendedLoopCompletes | ui/main_window.py:124-140 | as intended, with a voice assigned and a synthesiser that does not fail, the loop completes from any segment on |
| Dubbing.DubRunEmpty | ui/main_window.py:141-148 | an empty transcript exports nothing yet emits 70, 90 and `finished` |
| Dubbing.DubAsWrittenNeverFinishes | ui/main_window.py:125-136 | as written, a transcript whose first segment has no speaker never finishes and makes no clip |
| Dubbing.DubIntendedFinishes | ui/main_window.py:120-148 | as intended, with a voice assigned and a synthesiser that does not fail, every segment gets a clip and the run finishes |
| Dubbing.JoinClipsInOrder | ui/main_window.py:142-146 | the joined track is the clips in transcript order, nothing added or dropped |
| Dubbing.DubRunTrack | ui/main_window.py:139-147 | a finished run over a non-empty transcript exports one track: the loaded audio of its clips, one per segment, in transcript order |
| MainWindow.AudioExtractRun | ui/main_window.py:54-58 | progress 10 then 100 or 0; the payload path is the output path on success and empty on failure |
| MainWindow.ExtractionPayload | ui/main_window.py:57-58 | the payload carries a path iff extraction succeeded |
| MainWindow.AttachSpec | ui/main_window.py:620-623 | segment k gets translation k when there is one, else its own text; surplus translations are ignored; times, text and speaker are untouched |
| MainWindow.TranslatedTranscript | ui/main_window.py:624-625 | `translated_transcript` has the transcript's length, mirrors each attached translation, and is what dubbing speaks |
| MainWindow.FailedTranslationIsOriginal | ui/main_window.py:620-625 | when the engine fails every segment's translation is its own text |
| MainWindow.DisplayLines | ui/main_window.py:287-297 | reading the display back line by line gives each segment's shown text, original or translated |
| MainWindow.DisplayEmpty | ui/main_window.py:287-297 | an empty transcript displays as empty text |
| MainWindow.Initial | ui/main_window.py:162-172 | at start-up nothing is chosen and no speaker is known; the voice list is what `list_voices` found, or `Voice A`, `Voice B` and `Voice C` when it found none |
| MainWindow.PanelRows | ui/main_window.py:438-458 | the rows read back carry the panel labels in speaker order; because the panel was just rebuilt, every row holds the first voice offered and `Neutral` |
| MainWindow.PanelDefaultsEverywhere | ui/main_window.py:438-458 | the gathered dictionaries give every listed speaker `Neutral`, and the intended lookup gives any speaker the first voice offered |
| MainWindow.NextKeepsVoices | ui/main_window.py:422-444 | handling a worker's result never changes the window's voice list, since the diarization handler rebuilds the panel with speakers only |
| MainWindow.AudioExtractedSpec | ui/main_window.py:563-591 | failure clears the audio path, re-enables the inputs and starts nothing; success records the path and starts transcription |
| MainWindow.TranscriptionStartsTranslation | ui/main_window.py:593-614 | translation starts with the segments' texts and the session language, which is English while none is chosen |
| MainWindow.DiarizationStartsDubbing | ui/main_window.py:438-476 | dubbing gets the transcript, a non-empty speaker list, the output path, and the inputs are re-enabled |
| MainWindow.AfterExtracting | ui/main_window.py:563-583 | a successful extraction starts transcription of the extracted audio and keeps the language |
| MainWindow.AfterExtractingFails | ui/main_window.py:584-591 | a failed extraction is handled as such and starts no further worker |
| MainWindow.AfterTranscribing | ui/main_window.py:593-614 | transcription stores the recognised segments and starts translation of their texts in the session language |
| MainWindow.AfterTranslating | ui/main_window.py:616-643 | translation attaches its result to the transcript and starts diarization |
| MainWindow.AfterDiarizing | ui/main_window.py:438-476 | diarization starts dubbing of the transcript with a non-empty speaker list and the dictionaries read from the panel rebuilt for that list |
| MainWindow.AfterSynthesizing | ui/main_window.py:481-505 | a merge follows iff the dubbing worker finished, and it returns the window to idle |
| MainWindow.ExtractionFailureStops | ui/main_window.py:541-591 | a failed extraction ends the chain after extraction |
| MainWindow.ChainUpToDubbing | ui/main_window.py:563-643 | the stages run extract, transcribe, translate, diarize, synthesize in that order |
| MainWindow.DubbingInputs | ui/main_window.py:593-643 | dubbing is handed the recognised segments with translations attached, and the dictionaries of the panel rebuilt for the speakers, offering the voice list the window started with |
| MainWindow.DubbedInFirstVoice | ui/main_window.py:438-476 | with the intended lookup every recognised segment is dubbed in the first voice offered, with emotion `Neutral` |
| MainWindow.StageOrder | ui/main_window.py:481-643 | when dubbing finishes, the stages run extract, transcribe, translate, diarize, synthesize, and the merge handler then returns the window to idle |
| MainWindow.StageChainStallsAsWritten | ui/main_window.py:125-136 | as written, any recognised segment stalls the chain in synthesis |
| MainWindow.StageChainCompletesIntended | ui/main_window.py:129-136 | as intended, with a reliable synthesiser the chain runs to the end |
| MainWindow.ShownSpec | ui/main_window.py:438-632 | the bar keeps the last value its handler sets, or its old value when the handler sets none, and every value set lies in [0, 100] |
| MainWindow.ProgressFallsAtDiarization | ui/main_window.py:593-632 | transcription leaves the bar at 55; the translation handler shows 60 and then drops it to 20 as diarization starts |

## Left out

- Float rounding: times are exact reals, so binary rounding in `seconds - int(seconds)` is not modelled. For example, the float 0.001 may print 0 milliseconds.
- Subtitles.ParseGenerate: the round trip is stated for single-line texts (with any speaker prefix) without a carriage return, and non-negative times. Outside that it does not hold:
  - a text holding a newline or a blank line comes back changed;
  - the text-mode read turns `\r` and `\r\n` into `\n`, so a text holding a carriage return comes back changed;
  - `strip` removes white space at the ends of the last line of a block, so a text ending in white space comes back without it;
  - a segment whose text line is empty is dropped on re-read (Subtitles.EmptyTextDropped);
  - a negative time reads back as a different value: −1.5 reads back as −2.5 (Timestamp.NegativeRereadsShifted).
- Python's `int()` is modelled for ASCII digits with an optional sign and surrounding whitespace. Underscores and non-ASCII digits are not modelled.
- `str.lower` is modelled for ASCII capitals and the KELVIN SIGN only. No other character lower-cases to an ASCII letter of a video extension.
- Paths follow POSIX `os.path` rules. Windows drive letters and backslashes are not modelled.
- The file write of `generate_srt` and the file read of `parse_srt` become a returned string and an optional input string. The write's exception path only prints.
- Speakers: a diarization span record is modelled as `Span` carrying its `str` label. The timing inside it is never used by the code.
- A segment without a `text` key is not modelled, because the recogniser always sets one. The dubbing worker's `""` fallback therefore never applies.
- Segments never receive a speaker from diarization (ui/main_window.py:438-476), so every segment uses the fallback speaker.
- An empty transcript goes on to dubbing, which finishes without exporting (Dubbing.DubRunEmpty).
- Qt threads, signals, overlays, dialogs, the status bar and animations are not modelled. Neither are the autosave file, session restore, log files, `export_assets` and the edit dialogs.
- Audio extraction, recognition, diarization, the merge with ffmpeg and loading clips with pydub are not modelled. Each is an opaque function parameter. Their own arithmetic is inside external tools.
- Temporary file names: the paths the handlers pass on are parameters. The speech engine is a function of text and voice, so equal requests give equal clips, while `synthesize_speech` picks a fresh `tempfile.mktemp` path on every call (core/tts.py:34). The model therefore does not distinguish two clips with the same speech.
- MainWindow.Run: the chain of stages is followed for at most six worker completions. That is the length of the longest chain: extraction, transcription, translation, diarization, dubbing and merge.
- The intermediate progress values that the transcription, translation and diarization workers emit are not modelled. Only the values the handlers set are.
- `list_voices` itself is not modelled: its result is the argument of MainWindow.Initial. The voice rescan (`scan_tts_voices`) and session restore, which replace the voice list, are not modelled either, so the list stays as it was at start-up.
- Dubbing.DubProgress: the model uses integer division. Python divides in floats and truncates, which agrees for all transcripts shorter than 2^48 segments.

## Findings

| source | as written | input that shows it | evidently intended | confidence | as-written member | corrected member |
|---|---|---|---|---|---|---|
| ui/main_window.py:129-136 | `voices.get(speaker, default)` evaluates its default first. For a listed speaker the default is `voices[speakers.index(speaker)]`, an integer index into a dict keyed by panel labels, so it raises `KeyError`. | Diarization finds nobody, so the speakers are `["Speaker 1"]` and the panel gives `{"Speaker 1": "Voice A"}`. The segment has no speaker of its own, so it uses `"Speaker 1"`, which is listed, and the lookup raises. Every recognised segment takes this path, so dubbing never emits `finished`. | Use the voice assigned to the speaker's label, else the voice at the speaker's position, else the first voice. Fail only when no voice is assigned. | not executed | Dubbing.ResolveVoiceAsWritten (Dubbing.AsWrittenCounterexample, MainWindow.StageChainStallsAsWritten) | Dubbing.ResolveVoice (Dubbing.ResolveVoiceSpec, Dubbing.IntendedUsesPanelChoice, MainWindow.StageChainCompletesIntended) |
| ui/main_window.py:137 | `self.emotions.get(speaker, None)` hashes the speaker. A speaker that diarization returned is a span dict, which is unhashable, so the lookup raises `TypeError` whatever the dictionary holds. The emotions dictionary is keyed by the panel label `str(speaker)`. | Diarization finds one span record, so the speakers are `[record]` and the panel gives `{str(record): "Neutral"}`. A segment without a speaker of its own uses `record`. With the voice found by label, `emotions.get(record, None)` still raises. | Look the emotion up by the speaker's panel label, as the voice should be. | not executed | Dubbing.EmotionAsWritten (Dubbing.EmotionAsWrittenSpec, Dubbing.EmotionAsWrittenCounterexample) | Dubbing.EmotionFor (Dubbing.IntendedUsesPanelChoice, MainWindow.DubbedInFirstVoice) |

=== FILE: Dubbing.dfy ===
/**
 * The dubbing worker of the main window: for each transcript segment it
 * picks a speaker, a text, a voice and an emotion, synthesises a clip,
 * reports progress, and finally joins the clips into one track.
 * Voice and emotion assignments are Python dicts keyed by the speakers'
 * panel labels, modelled as association lists that keep insertion order.
 */
module Dubbing {
  import opened Wrappers
  import opened Languages
  import opened Speech

  /** A transcript segment as the main window holds it. */
  datatype Seg = Seg(start: real, end: real, text: string, translated: Option<string>, speaker: Option<string>)

  // ---------------------------------------------------------------- dicts

  /** A `dict` with string keys, in insertion order. */
  type Dict<V> = seq<(string, V)>

  /** `d[key] = value`: an existing key keeps its place and takes the new value; a new key goes last. */
  function Put<V>(d: Dict<V>, key: string, value: V): (r: Dict<V>)
    ensures |r| == |d| || |r| == |d| + 1
  {
    match FindFrom(d, key, 0)
    case Some(i) => d[i := (key, value)]
    case None => d + [(key, value)]
  }

  /** After `d[key] = value` the key reads back as the value and every other key is unchanged; keys stay distinct. */
  lemma PutSpec<V>(d: Dict<V>, key: string, value: V)
    requires DistinctKeys(d)
    ensures DistinctKeys(Put(d, key, value))
    ensures Lookup(Put(d, key, value), key) == Some(value)
    ensures forall other :: other != key ==> Lookup(Put(d, key, value), other) == Lookup(d, other)
  {
    var r := Put(d, key, value);
    var f := FindFrom(d, key, 0);
    assert forall j :: 0 <= j < |r| ==> r[j].0 == (if j < |d| then d[j].0 else key);
    assert DistinctKeys(r);
    if f.Some? {
      LookupAt(r, f.value);
    } else {
      LookupAt(r, |d|);
    }
    forall other | other != key
      ensures Lookup(r, other) == Lookup(d, other)
    {
      LookupFound(d, other);
      LookupFound(r, other);
      var g := FindFrom(d, other, 0);
      if g.Some? {
        LookupAt(d, g.value);
        LookupAt(r, g.value);
      }
    }
  }

  /** One row of the voice panel: speaker label, selected voice, selected emotion. */
  datatype Assignment = Assignment(name: string, voice: string, emotion: string)

  /** The voice and emotion dicts gathered row by row from the voice panel. */
  function GatherFrom(rows: seq<Assignment>, voices: Dict<string>, emotions: Dict<string>): (r: (Dict<string>, Dict<string>))
    decreases |rows|
  {
    if |rows| == 0 then (voices, emotions)
    else GatherFrom(rows[1..], Put(voices, rows[0].name, rows[0].voice), Put(emotions, rows[0].name, rows[0].emotion))
  }

  function Gather(rows: seq<Assignment>): (Dict<string>, Dict<string>) {
    GatherFrom(rows, [], [])
  }

  /** Position of the last row for speaker `name`, if the panel has one. */
  function LastRowOf(rows: seq<Assignment>, name: string): (r: Option<nat>)
    ensures r.Some? ==> r.value < |rows| && rows[r.value].name == name
    ensures r.Some? ==> forall j :: r.value < j < |rows| ==> rows[j].name != name
    ensures r.None? ==> forall j :: 0 <= j < |rows| ==> rows[j].name != name
    decreases |rows|
  {
    if |rows| == 0 then None
    else
      var rest := LastRowOf(rows[1..], name);
      assert forall j :: 1 <= j < |rows| ==> rows[j] == rows[1..][j - 1];
      match rest
      case Some(j) => Some(j + 1)
      case None => if rows[0].name == name then Some(0) else None
  }

  /**
   * Each speaker of the panel reads back the voice and emotion of its last
   * row, since a later row with the same speaker overwrites an earlier one;
   * a speaker without a row reads back whatever it had before.
   */
  lemma {:induction false} GatherSpec(rows: seq<Assignment>, voices: Dict<string>, emotions: Dict<string>, name: string)
    requires DistinctKeys(voices) && DistinctKeys(emotions)
    ensures var (v, e) := GatherFrom(rows, voices, emotions);
      && DistinctKeys(v) && DistinctKeys(e)
      && Lookup(v, name) == (match LastRowOf(rows, name) case Some(k) => Some(rows[k].voice) case None => Lookup(voices, name))
      && Lookup(e, name) == (match LastRowOf(rows, name) case Some(k) => Some(rows[k].emotion) case None => Lookup(emotions, name))
    decreases |rows|
  {
    if |rows| > 0 {
      var v, e := Put(voices, rows[0].name, rows[0].voice), Put(emotions, rows[0].name, rows[0].emotion);
      PutSpec(voices, rows[0].name, rows[0].voice);
      PutSpec(emotions, rows[0].name, rows[0].emotion);
      GatherSpec(rows[1..], v, e, name);
      var last := LastRowOf(rows[1..], name);
      if last.Some? {
        assert rows[1..][last.value] == rows[last.value + 1];
      }
    }
  }

  /** When every row carries the same voice, so does every entry of the gathered voice dict. */
  lemma {:induction false} GatherUniform(rows: seq<Assignment>, voices: Dict<string>, emotions: Dict<string>, v: string)
    requires forall k :: 0 <= k < |rows| ==> rows[k].voice == v
    requires forall k :: 0 <= k < |voices| ==> voices[k].1 == v
    ensures forall k :: 0 <= k < |GatherFrom(rows, voices, emotions).0| ==> GatherFrom(rows, voices, emotions).0[k].1 == v
    decreases |rows|
  {
    if |rows| > 0 {
      var next := Put(voices, rows[0].name, rows[0].voice);
      assert forall k :: 0 <= k < |next| ==> next[k].1 == v;
      assert forall k :: 0 <= k < |rows[1..]| ==> rows[1..][k] == rows[k + 1];
      GatherUniform(rows[1..], next, Put(emotions, rows[0].name, rows[0].emotion), v);
    }
  }

  // ---------------------------------------------------------------- per-segment choices

  /**
   * An entry of the speaker list. Diarization yields one span record per
   * speaker turn; such a record is unhashable and is only ever equal to
   * itself, and its panel label is its `str`. A speaker named by a plain
   * string (the fallback `Speaker 1`, or a name set on a segment) is its own
   * label.
   */
  datatype Speaker = Span(text: string) | Named(name: string)

  /** The text of the speaker's row in the voice panel: `str(speaker)`. */
  function Label(s: Speaker): string {
    match s
    case Span(text) => text
    case Named(name) => name
  }

  /** `speakers if speakers else ["Speaker 1"]`: the speaker list after diarization is never empty. */
  function DefaultSpeakers(found: seq<Speaker>): (r: seq<Speaker>)
    ensures |r| > 0
    ensures |found| > 0 ==> r == found
    ensures |found| == 0 ==> r == [Named("Speaker 1")]
  {
    if |found| > 0 then found else [Named("Speaker 1")]
  }

  /** `seg.get("speaker", speakers[0] if speakers else "Speaker 1")`. */
  function SpeakerFor(seg: Seg, speakers: seq<Speaker>): Speaker {
    match seg.speaker
    case Some(name) => Named(name)
    case None => if |speakers| > 0 then speakers[0] else Named("Speaker 1")
  }

  /** `seg.get("translated_text", seg["text"])`. */
  function SpeakText(seg: Seg): string {
    seg.translated.GetOr(seg.text)
  }

  /** What the worker picks for a segment, stated case by case. */
  lemma ChoicesSpec(seg: Seg, speakers: seq<Speaker>)
    ensures seg.speaker.Some? ==> SpeakerFor(seg, speakers) == Named(seg.speaker.value)
    ensures seg.speaker.None? && |speakers| > 0 ==> SpeakerFor(seg, speakers) == speakers[0]
    ensures seg.speaker.None? && |speakers| == 0 ==> SpeakerFor(seg, speakers) == Named("Speaker 1")
    ensures seg.translated.Some? ==> SpeakText(seg) == seg.translated.value
    ensures seg.translated.None? ==> SpeakText(seg) == seg.text
  {
  }

  /** A segment without a speaker of its own is spoken by a speaker of the list, once the list has its default. */
  lemma DefaultSpeakerListed(seg: Seg, found: seq<Speaker>)
    requires seg.speaker.None?
    ensures SpeakerFor(seg, DefaultSpeakers(found)) in DefaultSpeakers(found)
  {
  }

  // ---------------------------------------------------------------- voice resolution

  /** The values of a dict, in insertion order: `list(d.values())`. */
  function Values<V>(d: Dict<V>): (r: seq<V>)
    ensures |r| == |d| && forall i :: 0 <= i < |d| ==> r[i] == d[i].1
  {
    seq(|d|, i requires 0 <= i < |d| => d[i].1)
  }

  /** Position of `x` in `xs`: `xs.index(x)`. */
  function IndexOf(xs: seq<Speaker>, x: Speaker): (r: nat)
    requires x in xs
    ensures r < |xs| && xs[r] == x && forall j :: 0 <= j < r ==> xs[j] != x
  {
    if xs[0] == x then 0 else 1 + IndexOf(xs[1..], x)
  }

  /**
   * The voice lookup as written. The default argument of `voices.get` is
   * evaluated first: for a listed speaker it indexes the label-keyed dict with
   * the speaker's position, an `int` that is never a key (`KeyError`); for
   * any other speaker it takes the first voice, which raises `IndexError`
   * when there are none. Only then is the speaker itself used as key, which
   * a span record cannot be (`TypeError`). `None` stands for the exception.
   */
  function ResolveVoiceAsWritten(voices: Dict<string>, speakers: seq<Speaker>, speaker: Speaker): Option<string> {
    if speaker in speakers then None
    else if |voices| == 0 then None
    else match speaker
      case Span(_) => None
      case Named(name) => Some(Lookup(voices, name).GetOr(Values(voices)[0]))
  }

  /** As written, a listed speaker never gets a voice, even one assigned to its label. */
  lemma AsWrittenFailsForListedSpeaker(voices: Dict<string>, speakers: seq<Speaker>, speaker: Speaker)
    requires speaker in speakers
    ensures ResolveVoiceAsWritten(voices, speakers, speaker).None?
  {
  }

  /**
   * The smallest failing case: diarization found nobody, so the list is the
   * fallback `Speaker 1`, and the panel assigned it `Voice A`.
   */
  lemma AsWrittenCounterexample()
    ensures Lookup([("Speaker 1", "Voice A")], "Speaker 1") == Some("Voice A")
    ensures ResolveVoiceAsWritten([("Speaker 1", "Voice A")], DefaultSpeakers([]), Named("Speaker 1")).None?
    ensures ResolveVoice([("Speaker 1", "Voice A")], DefaultSpeakers([]), Named("Speaker 1")) == Some("Voice A")
  {
    LookupAt([("Speaker 1", "Voice A")], 0);
  }

  /**
   * The lookup as intended: the voice assigned to the speaker's label; else
   * the voice in the speaker's position of the panel; else the first voice.
   * Only an empty assignment has no voice to give.
   */
  function ResolveVoice(voices: Dict<string>, speakers: seq<Speaker>, speaker: Speaker): Option<string> {
    match Lookup(voices, Label(speaker))
    case Some(v) => Some(v)
    case None =>
      if speaker in speakers && IndexOf(speakers, speaker) < |voices| then Some(Values(voices)[IndexOf(speakers, speaker)])
      else if |voices| > 0 then Some(Values(voices)[0])
      else None
  }

  /** The intended lookup fails only without voices, honours the voice assigned to the label, and always answers with an assigned voice. */
  lemma ResolveVoiceSpec(voices: Dict<string>, speakers: seq<Speaker>, speaker: Speaker)
    ensures ResolveVoice(voices, speakers, speaker).Some? <==> |voices| > 0
    ensures Lookup(voices, Label(speaker)).Some? ==> ResolveVoice(voices, speakers, speaker) == Lookup(voices, Label(speaker))
    ensures ResolveVoice(voices, speakers, speaker).Some? ==> ResolveVoice(voices, speakers, speaker).value in Values(voices)
  {
    var key := Label(speaker);
    LookupFound(voices, key);
    if Lookup(voices, key).Some? {
      var i :| 0 <= i < |voices| && voices[i] == (key, Lookup(voices, key).value);
      assert Values(voices)[i] == Lookup(voices, key).value;
    }
  }

  /**
   * The labels of the voice panel's rows, one per speaker in list order; an
   * empty list shows two placeholder speakers.
   */
  function PanelLabels(speakers: seq<Speaker>): (r: seq<string>)
    ensures |speakers| > 0 ==> |r| == |speakers| && forall k :: 0 <= k < |r| ==> r[k] == Label(speakers[k])
    ensures |speakers| == 0 ==> r == ["Speaker 1", "Speaker 2"]
  {
    if |speakers| == 0 then ["Speaker 1", "Speaker 2"]
    else seq(|speakers|, k requires 0 <= k < |speakers| => Label(speakers[k]))
  }

  /** The voices each row offers: the window's voice list, or three placeholders when it is empty. */
  function PanelVoices(voices: seq<string>): (r: seq<string>)
    ensures |r| > 0
    ensures |voices| > 0 ==> r == voices
    ensures |voices| == 0 ==> r == ["Voice A", "Voice B", "Voice C"]
  {
    if |voices| == 0 then ["Voice A", "Voice B", "Voice C"] else voices
  }

  /** The emotions each row offers, `Neutral` first. */
  const PanelEmotions: seq<string> := ["Neutral", "Happy", "Sad", "Excited"]

  /** The rows of the panel as read back: each row's label with what is selected in it. */
  predicate RowsOfPanel(rows: seq<Assignment>, speakers: seq<Speaker>) {
    |rows| == |PanelLabels(speakers)| && forall k :: 0 <= k < |rows| ==> rows[k].name == PanelLabels(speakers)[k]
  }

  predicate DistinctLabels(speakers: seq<Speaker>) {
    forall i, j :: 0 <= i < j < |speakers| ==> Label(speakers[i]) != Label(speakers[j])
  }

  /**
   * With the intended lookup, every listed speaker is dubbed in the voice
   * selected in its own row of the panel, as long as no two rows share a label.
   */
  lemma IntendedUsesPanelChoice(rows: seq<Assignment>, speakers: seq<Speaker>, k: nat)
    requires RowsOfPanel(rows, speakers) && DistinctLabels(speakers) && k < |speakers|
    ensures ResolveVoice(Gather(rows).0, speakers, speakers[k]) == Some(rows[k].voice)
    ensures Lookup(Gather(rows).1, Label(speakers[k])) == Some(rows[k].emotion)
    ensures EmotionFor(Intended, Gather(rows).1, speakers[k]) == Some(Some(rows[k].emotion))
  {
    var name := Label(speakers[k]);
    GatherSpec(rows, [], [], name);
    var last := LastRowOf(rows, name);
    assert rows[k].name == name;
    assert last.Some?;
  }

  /** Which lookup a run uses: the one written in the worker, or the intended one. */
  datatype VoicePolicy = AsWritten | Intended

  function VoiceFor(policy: VoicePolicy, voices: Dict<string>, speakers: seq<Speaker>, speaker: Speaker): Option<string> {
    match policy
    case AsWritten => ResolveVoiceAsWritten(voices, speakers, speaker)
    case Intended => ResolveVoice(voices, speakers, speaker)
  }

  /**
   * `emotions.get(speaker, None)` as written: the speaker itself is the key,
   * which a span record cannot be (`TypeError`). The outer `None` stands for
   * the exception, the inner option for the value `get` returns.
   */
  function EmotionAsWritten(emotions: Dict<string>, speaker: Speaker): Option<Option<string>> {
    match speaker
    case Span(_) => None
    case Named(name) => Some(Lookup(emotions, name))
  }

  /** The emotion lookup of each policy; as intended, the key is the speaker's panel label. */
  function EmotionFor(policy: VoicePolicy, emotions: Dict<string>, speaker: Speaker): Option<Option<string>> {
    match policy
    case AsWritten => EmotionAsWritten(emotions, speaker)
    case Intended => Some(Lookup(emotions, Label(speaker)))
  }

  /**
   * As written, the emotion lookup raises exactly for a span record, and for
   * a named speaker agrees with the intended lookup by label.
   */
  lemma EmotionAsWrittenSpec(emotions: Dict<string>, speaker: Speaker)
    ensures EmotionAsWritten(emotions, speaker).None? <==> speaker.Span?
    ensures speaker.Named? ==> EmotionAsWritten(emotions, speaker) == EmotionFor(Intended, emotions, speaker)
  {
  }

  /**
   * Fixing the voice lookup alone is not enough: when diarization finds a
   * speaker, the fallback speaker is its span record, the intended voice
   * lookup answers by label, but the emotion lookup as written still raises.
   * The intended lookup gives the emotion of the record's panel row.
   */
  lemma EmotionAsWrittenCounterexample(record: string)
    ensures var speakers := DefaultSpeakers([Span(record)]);
      var seg := Seg(0.0, 1.0, "hello", None, None);
      var speaker := SpeakerFor(seg, speakers);
      && speaker == Span(record)
      && ResolveVoice([(record, "Voice A")], speakers, speaker) == Some("Voice A")
      && EmotionAsWritten([(record, "Neutral")], speaker).None?
      && EmotionFor(Intended, [(record, "Neutral")], speaker) == Some(Some("Neutral"))
  {
    LookupAt([(record, "Voice A")], 0);
    LookupAt([(record, "Neutral")], 0);
  }

  // ---------------------------------------------------------------- progress

  /**
   * `70 + int(20 * (i + 1) / len(transcript))` after segment `i`; for
   * non-negative operands `int` of the true quotient is the integer quotient.
   */
  function DubProgress(i: nat, n: nat): int
    requires i < n
  {
    70 + (20 * (i + 1)) / n
  }

  /** Progress after each segment stays within [70, 90], never goes back, and reaches 90 with the last one. */
  lemma DubProgressSpec(i: nat, j: nat, n: nat)
    requires i <= j < n
    ensures 70 <= DubProgress(i, n) <= DubProgress(j, n) <= 90
    ensures DubProgress(n - 1, n) == 90
  {
    var a, b, m := 20 * (i + 1), 20 * (j + 1), 20 * n;
    assert a <= b <= m;
    var qa, qb, qm := a / n, b / n, m / n;
    assert DubProgress(i, n) == 70 + qa;
    assert DubProgress(j, n) == 70 + qb;
    assert DubProgress(n - 1, n) == 70 + qm;
    QuotientFloor(a, n);
    QuotientAbove(b, n, qa);
    QuotientBelow(b, n, 20);
    QuotientBelow(m, n, 20);
    QuotientAbove(m, n, 20);
  }

  lemma QuotientFloor(a: nat, n: nat)
    requires n > 0
    ensures (a / n) * n <= a < (a / n) * n + n
  {
  }

  lemma MulLe(n: nat, x: nat, y: nat)
    requires x <= y
    ensures n * x <= n * y
  {
    var d := y - x;
    assert n * y == n * x + n * d;
  }

  /** A quotient is at most any `c` with `a <= c * n`. */
  lemma QuotientBelow(a: nat, n: nat, c: nat)
    requires n > 0 && a <= c * n
    ensures a / n <= c
  {
    var q := a / n;
    assert q * n <= a;
    if q > c {
      MulLe(n, c + 1, q);
    }
  }

  /** A quotient is at least any `c` with `c * n <= a`. */
  lemma QuotientAbove(a: nat, n: nat, c: nat)
    requires n > 0 && c * n <= a
    ensures c <= a / n
  {
    var q := a / n;
    assert a < q * n + n;
    if q < c {
      MulLe(n, q + 1, c);
    }
  }

  // ---------------------------------------------------------------- the worker

  /** What the worker is given: the transcript, the speaker list, the two dicts and the output path. */
  datatype Job = Job(transcript: seq<Seg>, speakers: seq<Speaker>, voices: Dict<string>, emotions: Dict<string>, outPath: string)

  /**
   * The synthesis call for one segment, or `None` when the voice lookup or
   * the emotion lookup `emotions.get(speaker, None)` raises.
   */
  function RequestFor(job: Job, policy: VoicePolicy, seg: Seg): Option<Request> {
    var speaker := SpeakerFor(seg, job.speakers);
    match VoiceFor(policy, job.voices, job.speakers, speaker)
    case None => None
    case Some(voice) =>
      match EmotionFor(policy, job.emotions, speaker)
      case None => None
      case Some(emotion) => Some(Request(SpeakText(seg), voice, emotion))
  }

  /** The loop from segment `i` on: clip paths and progress values so far, and whether it ran to the end. */
  datatype Loop = Loop(clips: seq<string>, progress: seq<int>, complete: bool)

  function LoopFrom(job: Job, policy: VoicePolicy, tts: Option<Synth>, i: nat): (r: Loop)
    requires i <= |job.transcript|
    ensures |r.clips| == |r.progress| <= |job.transcript| - i
    ensures r.complete ==> |r.clips| == |job.transcript| - i
    decreases |job.transcript| - i
  {
    if i == |job.transcript| then Loop([], [], true)
    else match RequestFor(job, policy, job.transcript[i])
      case None => Loop([], [], false)
      case Some(req) =>
        match SynthesizeSpeech(tts, req)
        case None => Loop([], [], false)
        case Some(path) =>
          var rest := LoopFrom(job, policy, tts, i + 1);
          Loop([path] + rest.clips, [DubProgress(i, |job.transcript|)] + rest.progress, rest.complete)
  }

  /** What one run of the worker leaves behind. */
  datatype DubOutcome = DubOutcome(
    progress: seq<int>,     // values emitted on the progress signal, in order
    clips: seq<string>,     // clip paths synthesised, in transcript order
    exported: bool,         // whether a track was written to the output path
    finished: Option<string> // the payload of `finished`, if it was emitted
  )

  /**
   * `TTSDubWorker.run`: progress 70, one clip per segment in order, the
   * joined track exported when there is at least one clip, then progress 90
   * and `finished` with the output path. An exception ends the run without
   * `finished`.
   */
  function DubRun(job: Job, policy: VoicePolicy, tts: Option<Synth>): DubOutcome {
    var loop := LoopFrom(job, policy, tts, 0);
    if loop.complete then DubOutcome([70] + loop.progress + [90], loop.clips, |loop.clips| > 0, Some(job.outPath))
    else DubOutcome([70] + loop.progress, loop.clips, false, None)
  }

  /** A complete loop emits `DubProgress(k)` after segment `k` and holds the clip of each segment in order. */
  lemma {:induction false} LoopSpec(job: Job, policy: VoicePolicy, tts: Option<Synth>, i: nat)
    requires i <= |job.transcript|
    ensures var r := LoopFrom(job, policy, tts, i);
      r.complete ==>
        forall k :: i <= k < |job.transcript| ==>
          && RequestFor(job, policy, job.transcript[k]).Some?
          && SynthesizeSpeech(tts, RequestFor(job, policy, job.transcript[k]).value) == Some(r.clips[k - i])
          && r.progress[k - i] == DubProgress(k, |job.transcript|)
    decreases |job.transcript| - i
  {
    if i < |job.transcript| {
      LoopSpec(job, policy, tts, i + 1);
    }
  }

  /** The progress signal as a whole: 70, then `DubProgress(k)` after segment `k`, then 90. */
  predicate ProgressSound(p: seq<int>) {
    && |p| > 0 && p[|p| - 1] == 90
    && (forall k :: 0 <= k < |p| ==> 70 <= p[k] <= 90)
    && (forall a, b :: 0 <= a <= b < |p| ==> p[a] <= p[b])
  }

  lemma ProgressSequence(steps: seq<int>, n: nat)
    requires |steps| == n && forall k :: 0 <= k < n ==> steps[k] == DubProgress(k, n)
    ensures ProgressSound([70] + steps + [90])
  {
    var p := [70] + steps + [90];
    assert forall k :: 0 < k <= n ==> p[k] == steps[k - 1];
    forall k | 0 < k <= n
      ensures 70 <= p[k] <= 90
    {
      DubProgressSpec(k - 1, k - 1, n);
    }
    forall a, b | 0 <= a <= b < |p|
      ensures p[a] <= p[b]
    {
      if 0 < a && b <= n {
        DubProgressSpec(a - 1, b - 1, n);
      } else if 0 < b <= n {
        DubProgressSpec(b - 1, b - 1, n);
      } else if 0 < a <= n {
        DubProgressSpec(a - 1, a - 1, n);
      }
    }
  }

  /** A finished run's outcome is built from a complete loop. */
  lemma DubRunLoop(job: Job, policy: VoicePolicy, tts: Option<Synth>)
    requires DubRun(job, policy, tts).finished.Some?
    ensures var loop := LoopFrom(job, policy, tts, 0);
      && loop.complete
      && DubRun(job, policy, tts) == DubOutcome([70] + loop.progress + [90], loop.clips, |loop.clips| > 0, Some(job.outPath))
  {
  }

  /**
   * A run that finishes has emitted a non-decreasing sequence of progress
   * values within [70, 90] ending in 90, and its clips are the segments'
   * clips in transcript order; the track is exported exactly when the
   * transcript is not empty.
   */
  lemma DubRunFinished(job: Job, policy: VoicePolicy, tts: Option<Synth>)
    requires DubRun(job, policy, tts).finished.Some?
    ensures var r := DubRun(job, policy, tts);
      && r.finished == Some(job.outPath)
      && |r.clips| == |job.transcript|
      && r.exported == (|job.transcript| > 0)
      && ProgressSound(r.progress)
      && forall k :: 0 <= k < |job.transcript| ==>
           RequestFor(job, policy, job.transcript[k]).Some? &&
           SynthesizeSpeech(tts, RequestFor(job, policy, job.transcript[k]).value) == Some(r.clips[k])
  {
    var loop := LoopFrom(job, policy, tts, 0);
    DubRunLoop(job, policy, tts);
    LoopSpec(job, policy, tts, 0);
    ProgressSequence(loop.progress, |job.transcript|);
  }

  /** An empty transcript synthesises nothing and exports nothing, yet still reports 70, 90 and `finished`. */
  lemma DubRunEmpty(job: Job, policy: VoicePolicy, tts: Option<Synth>)
    requires |job.transcript| == 0
    ensures DubRun(job, policy, tts) == DubOutcome([70, 90], [], false, Some(job.outPath))
  {
  }

  /**
   * As written, the worker never finishes a non-empty transcript whose
   * segments carry no speaker of their own: each falls back to the first
   * listed speaker, whose voice lookup raises.
   */
  lemma DubAsWrittenNeverFinishes(job: Job, tts: Option<Synth>)
    requires |job.transcript| > 0 && job.transcript[0].speaker.None?
    requires |job.speakers| > 0
    ensures DubRun(job, AsWritten, tts).finished.None?
    ensures DubRun(job, AsWritten, tts).clips == []
  {
    assert SpeakerFor(job.transcript[0], job.speakers) in job.speakers;
  }

  /**
   * With the intended lookup, at least one voice and a synthesiser that never
   * fails, the worker finishes and exports one clip per segment.
   */
  lemma DubIntendedFinishes(job: Job, synth: Synth)
    requires |job.voices| > 0
    requires forall text, voice :: synth(text, voice).Some?
    ensures DubRun(job, Intended, Some(synth)).finished == Some(job.outPath)
    ensures |DubRun(job, Intended, Some(synth)).clips| == |job.transcript|
  {
    IntendedLoopCompletes(job, synth, 0);
  }

  lemma {:induction false} IntendedLoopCompletes(job: Job, synth: Synth, i: nat)
    requires |job.voices| > 0 && i <= |job.transcript|
    requires forall text, voice :: synth(text, voice).Some?
    ensures LoopFrom(job, Intended, Some(synth), i).complete
    decreases |job.transcript| - i
  {
    if i < |job.transcript| {
      var speaker := SpeakerFor(job.transcript[i], job.speakers);
      ResolveVoiceSpec(job.voices, job.speakers, speaker);
      var req := RequestFor(job, Intended, job.transcript[i]);
      assert req.Some?;
      assert synth(req.value.text, req.value.voice).Some?;
      IntendedLoopCompletes(job, synth, i + 1);
    }
  }

  // ---------------------------------------------------------------- joining the clips

  /** `final = clips[0]; for c in clips[1:]: final += c`, over the loaded audio of each clip. */
  function JoinClips<A>(clips: seq<seq<A>>): seq<A>
    requires |clips| > 0
    decreases |clips|
  {
    if |clips| == 1 then clips[0] else JoinClips(clips[..|clips| - 1]) + clips[|clips| - 1]
  }

  /** All clips one after another, first to last. */
  function Flatten<A>(clips: seq<seq<A>>): seq<A>
    decreases |clips|
  {
    if |clips| == 0 then [] else clips[0] + Flatten(clips[1..])
  }

  lemma {:induction false} FlattenAppend<A>(clips: seq<seq<A>>, last: seq<A>)
    ensures Flatten(clips + [last]) == Flatten(clips) + last
    decreases |clips|
  {
    if |clips| == 0 {
      assert Flatten([last]) == last + Flatten([]);
    } else {
      assert (clips + [last])[1..] == clips[1..] + [last];
      FlattenAppend(clips[1..], last);
      assert clips[0] + (Flatten(clips[1..]) + last) == clips[0] + Flatten(clips[1..]) + last;
    }
  }

  /** The track the worker builds is the clips in transcript order, with nothing added, dropped or reordered. */
  lemma {:induction false} JoinClipsInOrder<A>(clips: seq<seq<A>>)
    requires |clips| > 0
    ensures JoinClips(clips) == Flatten(clips)
    decreases |clips|
  {
    if |clips| == 1 {
      assert Flatten(clips) == clips[0] + Flatten(clips[1..]);
      assert Flatten(clips[1..]) == [];
    } else {
      var init := clips[..|clips| - 1];
      JoinClipsInOrder(init);
      assert clips == init + [clips[|clips| - 1]];
      FlattenAppend(init, clips[|clips| - 1]);
    }
  }

  /** The audio of each clip path, in order; `load` stands for `AudioSegment.from_file`. */
  function Loaded<A>(paths: seq<string>, load: string -> seq<A>): (r: seq<seq<A>>)
    ensures |r| == |paths|
    ensures forall i :: 0 <= i < |paths| ==> r[i] == load(paths[i])
  {
    seq(|paths|, i requires 0 <= i < |paths| => load(paths[i]))
  }

  /** The track a run writes to its output path, or `None` when it writes none. */
  function ExportedTrack<A>(out: DubOutcome, load: string -> seq<A>): Option<seq<A>> {
    if out.exported && |out.clips| > 0 then Some(JoinClips(Loaded(out.clips, load))) else None
  }

  /** A finished run over a non-empty transcript writes one track: the audio of its clips,
      one per segment, in transcript order. */
  lemma DubRunTrack<A>(job: Job, policy: VoicePolicy, tts: Option<Synth>, load: string -> seq<A>)
    requires DubRun(job, policy, tts).finished.Some? && |job.transcript| > 0
    ensures var out := DubRun(job, policy, tts);
      && |out.clips| == |job.transcript|
      && ExportedTrack(out, load) == Some(Flatten(Loaded(out.clips, load)))
  {
    var out := DubRun(job, policy, tts);
    DubRunFinished(job, policy, tts);
    JoinClipsInOrder(Loaded(out.clips, load));
  }
}

=== FILE: Languages.dfy ===
/**
 * The language table of the application: twelve display names, each with
 * its two-letter ISO 639-1 code, and the lookup that falls back to English.
 */
module Languages {
  import opened Wrappers

  /** `LANGUAGE_CODES`, in the order the table lists its entries. */
  const Table: seq<(string, string)> := [
    ("English", "en"), ("Spanish", "es"), ("French", "fr"), ("German", "de"),
    ("Chinese", "zh"), ("Japanese", "ja"), ("Korean", "ko"), ("Italian", "it"),
    ("Portuguese", "pt"), ("Russian", "ru"), ("Hindi", "hi"), ("Arabic", "ar")
  ]

  /** The code `get_language_code` falls back to. */
  const DefaultCode: string := "en"

  /** Position of the first entry at or after `k` whose key is `key`. */
  function FindFrom<K(==), V>(table: seq<(K, V)>, key: K, k: nat): (r: Option<nat>)
    requires k <= |table|
    ensures r.Some? ==> k <= r.value < |table| && table[r.value].0 == key
    ensures r.Some? ==> forall j :: k <= j < r.value ==> table[j].0 != key
    ensures r.None? <==> forall j :: k <= j < |table| ==> table[j].0 != key
    decreases |table| - k
  {
    if k == |table| then None
    else if table[k].0 == key then Some(k)
    else FindFrom(table, key, k + 1)
  }

  /** `table.get(key)` for a table whose keys are distinct. */
  function Lookup<K(==), V>(table: seq<(K, V)>, key: K): Option<V> {
    match FindFrom(table, key, 0)
    case None => None
    case Some(i) => Some(table[i].1)
  }

  predicate DistinctKeys<K(==), V>(table: seq<(K, V)>) {
    forall i, j :: 0 <= i < j < |table| ==> table[i].0 != table[j].0
  }

  /** Each entry with its two columns exchanged. */
  function Swap<K, V>(table: seq<(K, V)>): (r: seq<(V, K)>)
    ensures |r| == |table|
    ensures forall i :: 0 <= i < |table| ==> r[i] == (table[i].1, table[i].0)
  {
    seq(|table|, i requires 0 <= i < |table| => (table[i].1, table[i].0))
  }

  /** Looking up a key of a table with distinct keys yields the value stored beside it. */
  lemma LookupAt<K, V>(table: seq<(K, V)>, i: nat)
    requires DistinctKeys(table) && i < |table|
    ensures Lookup(table, table[i].0) == Some(table[i].1)
  {
    var r := FindFrom(table, table[i].0, 0);
    assert r.Some? && r.value <= i;
  }

  /** A value found by `Lookup` sits beside its key in the table. */
  lemma LookupFound<K, V>(table: seq<(K, V)>, key: K)
    ensures Lookup(table, key).Some? <==> exists i :: 0 <= i < |table| && table[i].0 == key
    ensures Lookup(table, key).Some? ==> exists i :: 0 <= i < |table| && table[i] == (key, Lookup(table, key).value)
  {
    var r := FindFrom(table, key, 0);
    if r.Some? {
      assert table[r.value] == (key, Lookup(table, key).value);
    }
  }

  /** A two-letter lower-case ASCII code. */
  predicate IsCode(c: string) {
    |c| == 2 && 'a' <= c[0] <= 'z' && 'a' <= c[1] <= 'z'
  }

  /** The table has twelve entries and starts with English, whose code is the fallback code. */
  lemma TableSize()
    ensures |Table| == 12 && Table[0] == ("English", DefaultCode)
  {
  }

  /** Every code is two lower-case letters. */
  lemma CodesAreCodes()
    ensures forall i :: 0 <= i < |Table| ==> IsCode(Table[i].1)
  {
  }

  /** No display name appears twice. */
  lemma NamesDistinct()
    ensures DistinctKeys(Table)
  {
  }

  /** No code appears twice, so the table can be read backwards. */
  lemma CodesDistinct()
    ensures DistinctKeys(Swap(Table))
  {
  }

  /**
   * `get_language_code(language)`: the table's code for a listed name and
   * `'en'` for anything else, including no language at all (`None`).
   */
  function LanguageCode(language: Option<string>): (r: string)
    ensures exists i :: 0 <= i < |Table| && Table[i].1 == r
  {
    assert Table[0].1 == DefaultCode;
    match language
    case None => DefaultCode
    case Some(name) =>
      LookupFound(Table, name);
      Lookup(Table, name).GetOr(DefaultCode)
  }

  /** A listed name gets its own code. */
  lemma CodeOfListed(i: nat)
    requires i < |Table|
    ensures LanguageCode(Some(Table[i].0)) == Table[i].1
  {
    NamesDistinct();
    LookupAt(Table, i);
  }

  /** A name that is not listed, or no name, gets English. */
  lemma CodeOfUnlisted(language: Option<string>)
    requires forall i :: 0 <= i < |Table| ==> Some(Table[i].0) != language
    ensures LanguageCode(language) == DefaultCode
  {
    if language.Some? {
      LookupFound(Table, language.value);
    }
  }

  /** The display name listed for a code. */
  function NameOf(code: string): Option<string> {
    Lookup(Swap(Table), code)
  }

  /** Every code of the table names exactly one language, and that language maps back to it. */
  lemma NameOfCode(i: nat)
    requires i < |Table|
    ensures NameOf(Table[i].1) == Some(Table[i].0)
    ensures LanguageCode(NameOf(Table[i].1)) == Table[i].1
  {
    CodesDistinct();
    LookupAt(Swap(Table), i);
    CodeOfListed(i);
  }
}

=== FILE: MainWindow.dfy ===
/**
 * The bookkeeping of the main window: the handlers that run when a worker
 * finishes, the state they leave behind, and the chain of stages they form.
 * Each handler is a pure step from one window state to the next; each
 * worker is a function from its inputs to the event it emits. Widgets,
 * threads, overlays and the autosave file are not part of this model.
 */
module MainWindow {
  import opened Wrappers
  import opened Strings
  import opened Languages
  import opened Translation
  import opened Speech
  import opened Dubbing

  // ---------------------------------------------------------------- audio extraction worker

  /** What `AudioExtractWorker.run` emits: its progress values and the `finished` payload. */
  datatype Extraction = Extraction(progress: seq<int>, success: bool, path: string)

  /** `AudioExtractWorker.run`, given whether extraction succeeded. */
  function AudioExtractRun(extracted: bool, outPath: string): (r: Extraction)
    ensures r.progress == [10, if extracted then 100 else 0]
    ensures r.success == extracted
    ensures r.success ==> r.path == outPath
    ensures !r.success ==> r.path == ""
  {
    Extraction([10, if extracted then 100 else 0], extracted, if extracted then outPath else "")
  }

  /** The payload carries a path exactly when extraction succeeded, and then the worker's output path. */
  lemma ExtractionPayload(extracted: bool, outPath: string)
    requires outPath != ""
    ensures AudioExtractRun(extracted, outPath).path != "" <==> extracted
    ensures AudioExtractRun(extracted, outPath).progress[1] == 100 <==> extracted
  {
  }

  // ---------------------------------------------------------------- translations

  /**
   * The loop of `on_translation_complete` from segment `i` on: segment `i`
   * gets `translated_texts[i]` when there is one and its own text otherwise.
   */
  function AttachFrom(transcript: seq<Seg>, texts: seq<string>, i: nat): (r: seq<Seg>)
    requires i <= |transcript|
    ensures |r| == |transcript| - i
    ensures forall k :: 0 <= k < |r| ==> r[k].translated.Some?
    decreases |transcript| - i
  {
    if i == |transcript| then []
    else
      var seg := transcript[i];
      [seg.(translated := Some(if i < |texts| then texts[i] else seg.text))] + AttachFrom(transcript, texts, i + 1)
  }

  function AttachTranslations(transcript: seq<Seg>, texts: seq<string>): seq<Seg> {
    AttachFrom(transcript, texts, 0)
  }

  /**
   * Attaching leaves every segment's time, text and speaker alone, gives
   * segment `k` translation `k` when there is one and its own text otherwise,
   * and ignores surplus translations.
   */
  lemma {:induction false} AttachSpec(transcript: seq<Seg>, texts: seq<string>, i: nat)
    requires i <= |transcript|
    ensures var r := AttachFrom(transcript, texts, i);
      forall k :: i <= k < |transcript| ==>
        && r[k - i].start == transcript[k].start && r[k - i].end == transcript[k].end
        && r[k - i].text == transcript[k].text && r[k - i].speaker == transcript[k].speaker
        && r[k - i].translated == Some(if k < |texts| then texts[k] else transcript[k].text)
    decreases |transcript| - i
  {
    if i < |transcript| {
      AttachSpec(transcript, texts, i + 1);
    }
  }

  /** `[seg["translated_text"] for seg in transcript]` after attaching. */
  function TranslatedTexts(attached: seq<Seg>): (r: seq<string>)
    ensures |r| == |attached|
  {
    seq(|attached|, k requires 0 <= k < |attached| => attached[k].translated.GetOr(attached[k].text))
  }

  /**
   * `translated_transcript` is the translations, as many as the transcript
   * has segments, padded with original texts; it is what the dubbing worker
   * will speak for each segment.
   */
  lemma TranslatedTranscript(transcript: seq<Seg>, texts: seq<string>)
    ensures var r := TranslatedTexts(AttachTranslations(transcript, texts));
      && |r| == |transcript|
      && (forall k :: 0 <= k < |transcript| && k < |texts| ==> r[k] == texts[k])
      && (forall k :: |texts| <= k < |transcript| ==> r[k] == transcript[k].text)
      && forall k :: 0 <= k < |transcript| ==> r[k] == SpeakText(AttachTranslations(transcript, texts)[k])
  {
    AttachSpec(transcript, texts, 0);
  }

  /** A translation service that fails leaves every segment translated into its own text. */
  lemma FailedTranslationIsOriginal(service: BatchTranslator, transcript: seq<Seg>, language: Option<string>)
    requires service(LanguageCode(language), SourceTexts(transcript)).None?
    ensures TranslatedTexts(AttachTranslations(transcript, BatchTranslate(service, SourceTexts(transcript), language))) == SourceTexts(transcript)
  {
    TranslatedTranscript(transcript, SourceTexts(transcript));
  }

  /** `[seg["text"] for seg in segments]`: what the translation worker sends. */
  function SourceTexts(transcript: seq<Seg>): (r: seq<string>)
    ensures |r| == |transcript| && forall k :: 0 <= k < |r| ==> r[k] == transcript[k].text
  {
    seq(|transcript|, k requires 0 <= k < |transcript| => transcript[k].text)
  }

  // ---------------------------------------------------------------- transcript display

  /** `update_transcript_display`: one line per segment, original or translated text. */
  function TranscriptDisplay(transcript: seq<Seg>, showTranslated: bool): string {
    Join("\n", seq(|transcript|, k requires 0 <= k < |transcript| =>
      if showTranslated then transcript[k].translated.GetOr(transcript[k].text) else transcript[k].text))
  }

  /**
   * Reading the display back line by line gives each segment's shown text,
   * in order, as long as no text holds a line break of its own.
   */
  lemma DisplayLines(transcript: seq<Seg>, showTranslated: bool)
    requires |transcript| > 0
    requires forall k :: 0 <= k < |transcript| ==>
      Avoids(transcript[k].text, '\n') && Avoids(transcript[k].translated.GetOr(transcript[k].text), '\n')
    ensures showTranslated ==> SplitOn(TranscriptDisplay(transcript, showTranslated), "\n") == TranslatedTexts(transcript)
    ensures !showTranslated ==> SplitOn(TranscriptDisplay(transcript, showTranslated), "\n") == SourceTexts(transcript)
  {
    var lines := seq(|transcript|, k requires 0 <= k < |transcript| =>
      if showTranslated then transcript[k].translated.GetOr(transcript[k].text) else transcript[k].text);
    SplitJoin("\n", lines);
  }

  /** An empty transcript displays as the empty text. */
  lemma DisplayEmpty(showTranslated: bool)
    ensures TranscriptDisplay([], showTranslated) == ""
  {
  }

  // ---------------------------------------------------------------- window state

  /** The worker the window is waiting on, with what it was given. */
  datatype Stage =
    | Idle
    | Extracting(video: string, audioOut: string)
    | Transcribing(audio: string)
    | Translating(texts: seq<string>, language: Option<string>)
    | Diarizing(audioPath: Option<string>)
    | Synthesizing(job: Job)

  /**
   * The session as the handlers keep it, with the progress bar's value,
   * whether the inputs are enabled, and the voice list the panel offers.
   */
  datatype Window = Window(
    stage: Stage,
    progress: int,
    controls: bool,
    video: Option<string>,
    audio: Option<string>,
    language: Option<string>,
    transcript: seq<Seg>,
    translated: seq<string>,
    speakers: seq<Speaker>,
    voices: seq<string>
  )

  /**
   * The session at start-up, given what `list_voices` found: nothing chosen,
   * no language, no speakers, and the found voices or three placeholders.
   */
  function Initial(listed: seq<string>): (w: Window)
    ensures w.stage == Idle && w.video.None? && w.language.None? && w.speakers == []
    ensures |w.voices| > 0 && (|listed| > 0 ==> w.voices == listed)
    ensures |listed| == 0 ==> w.voices == ["Voice A", "Voice B", "Voice C"]
  {
    Window(Idle, 0, true, None, None, None, [], [], [], PanelVoices(listed))
  }

  /**
   * The rows of the voice panel as `on_diarization_complete` reads them. The
   * handler rebuilds the panel for the new speaker list just before reading
   * it, so every row's combo boxes are freshly filled and show their first
   * item: the first voice offered and `Neutral`.
   */
  function PanelRows(speakers: seq<Speaker>, voices: seq<string>): (rows: seq<Assignment>)
    ensures RowsOfPanel(rows, speakers)
    ensures forall k :: 0 <= k < |rows| ==> rows[k].voice == PanelVoices(voices)[0] && rows[k].emotion == PanelEmotions[0]
  {
    var labels := PanelLabels(speakers);
    seq(|labels|, k requires 0 <= k < |labels| => Assignment(labels[k], PanelVoices(voices)[0], PanelEmotions[0]))
  }

  /**
   * Whatever the speaker list, the dictionaries gathered from the rebuilt
   * panel give every listed speaker the first voice offered and `Neutral`;
   * with the intended lookup, any speaker at all is dubbed in that voice.
   */
  lemma PanelDefaultsEverywhere(speakers: seq<Speaker>, voices: seq<string>, speaker: Speaker)
    requires |speakers| > 0
    ensures var (vs, es) := Gather(PanelRows(speakers, voices));
      && ResolveVoice(vs, speakers, speaker) == Some(PanelVoices(voices)[0])
      && (speaker in speakers ==> Lookup(es, Label(speaker)) == Some("Neutral"))
  {
    var rows := PanelRows(speakers, voices);
    var (vs, es) := Gather(rows);
    var v0 := PanelVoices(voices)[0];
    var name := Label(speaker);
    GatherSpec(rows, [], [], name);
    GatherSpec(rows, [], [], rows[0].name);
    LookupFound(vs, rows[0].name);
    GatherUniform(rows, [], [], v0);
    ResolveVoiceSpec(vs, speakers, speaker);
    if speaker in speakers {
      var k := IndexOf(speakers, speaker);
      assert rows[k].name == name;
    }
  }

  /** What a worker, or the user, reports to the window. */
  datatype Event =
    | FileSelected(path: string, audioOut: string)
    | LanguageChanged(name: string)
    | AudioExtracted(success: bool, path: string)
    | TranscriptionComplete(segments: seq<Seg>)
    | TranslationComplete(texts: seq<string>)
    | DiarizationComplete(found: seq<Speaker>, dubOut: string)
    | TtsComplete(path: string, merged: bool)

  /**
   * The handler for each event. Each sets the progress bar last to the value
   * shown here and starts the worker named by the new stage.
   */
  function Step(w: Window, e: Event): Window {
    match e
    case FileSelected(path, audioOut) =>
      w.(stage := Extracting(path, audioOut), progress := 10, controls := false, video := Some(path))
    case LanguageChanged(name) =>
      w.(language := Some(name))
    case AudioExtracted(success, path) =>
      if success then w.(stage := Transcribing(path), progress := 30, audio := Some(path))
      else w.(stage := Idle, progress := 0, audio := None, controls := true)
    case TranscriptionComplete(segments) =>
      w.(stage := Translating(SourceTexts(segments), w.language), progress := 55, transcript := segments)
    case TranslationComplete(texts) =>
      var attached := AttachTranslations(w.transcript, texts);
      w.(stage := Diarizing(w.audio), progress := 20, transcript := attached, translated := TranslatedTexts(attached))
    case DiarizationComplete(found, dubOut) =>
      var speakers := DefaultSpeakers(found);
      var (voices, emotions) := Gather(PanelRows(speakers, w.voices));
      w.(stage := Synthesizing(Job(w.transcript, speakers, voices, emotions, dubOut)), progress := 70, controls := true, speakers := speakers)
    case TtsComplete(path, merged) =>
      w.(stage := Idle, progress := if merged then 100 else 0)
  }

  /**
   * Every value the handler for `e` sets on the progress bar, in order;
   * the language handler sets none.
   */
  function Shown(e: Event): seq<int> {
    match e
    case FileSelected(_, _) => [10]
    case LanguageChanged(_) => []
    case AudioExtracted(success, _) => if success then [100, 30] else [0]
    case TranscriptionComplete(_) => [50, 55]
    case TranslationComplete(_) => [60, 20]
    case DiarizationComplete(_, _) => [40, 70]
    case TtsComplete(_, merged) => [90, if merged then 100 else 0]
  }

  /**
   * The bar keeps the last value its handler set, or its old value when the
   * handler sets none; every value shown lies in [0, 100].
   */
  lemma ShownSpec(w: Window, e: Event)
    ensures |Shown(e)| == 0 ==> Step(w, e).progress == w.progress
    ensures |Shown(e)| > 0 ==> Step(w, e).progress == Shown(e)[|Shown(e)| - 1]
    ensures forall k :: 0 <= k < |Shown(e)| ==> 0 <= Shown(e)[k] <= 100
  {
  }

  /** A failed extraction clears the audio path, re-enables the inputs and starts nothing; a successful one records the path and starts transcription. */
  lemma AudioExtractedSpec(w: Window, success: bool, path: string)
    ensures var r := Step(w, AudioExtracted(success, path));
      && (!success ==> r.stage == Idle && r.audio == None && r.controls && r.progress == 0)
      && (success ==> r.stage == Transcribing(path) && r.audio == Some(path) && r.controls == w.controls)
      && r.transcript == w.transcript && r.video == w.video
  {
  }

  /**
   * Translation starts with the texts of the new transcript and the language
   * the session holds; the service is asked for that language's table code,
   * English while no language has been chosen.
   */
  lemma TranscriptionStartsTranslation(w: Window, segments: seq<Seg>)
    ensures var r := Step(w, TranscriptionComplete(segments));
      && r.stage == Translating(SourceTexts(segments), w.language)
      && r.transcript == segments
    ensures w.language.None? ==> LanguageCode(w.language) == DefaultCode
  {
  }

  /**
   * After diarization the window holds a non-empty speaker list and hands
   * the dubbing worker the translated transcript, that list, and the
   * voices and emotions read from the panel rebuilt for that list.
   */
  lemma DiarizationStartsDubbing(w: Window, found: seq<Speaker>, dubOut: string)
    ensures var r := Step(w, DiarizationComplete(found, dubOut));
      && |r.speakers| > 0
      && (|found| > 0 ==> r.speakers == found)
      && r.stage.Synthesizing?
      && r.stage.job.transcript == w.transcript
      && r.stage.job.speakers == r.speakers
      && r.stage.job.outPath == dubOut
      && r.controls
  {
  }

  // ---------------------------------------------------------------- the stage chain

  /**
   * The external engines the workers depend on; `merge` is given the
   * session's video file and the dubbed track.
   */
  datatype Env = Env(
    extract: string -> bool,
    transcribe: string -> seq<Seg>,
    translate: BatchTranslator,
    diarize: Option<string> -> seq<Speaker>,
    dubOut: string,
    policy: VoicePolicy,
    tts: Option<Synth>,
    merge: (Option<string>, string) -> bool
  )

  /**
   * The event the running worker emits when it finishes, or `None` when
   * nothing is running or the worker dies before `finished`.
   */
  function WorkerEvent(w: Window, env: Env): Option<Event> {
    match w.stage
    case Idle => None
    case Extracting(video, audioOut) =>
      var x := AudioExtractRun(env.extract(video), audioOut);
      Some(AudioExtracted(x.success, x.path))
    case Transcribing(audio) => Some(TranscriptionComplete(env.transcribe(audio)))
    case Translating(texts, language) => Some(TranslationComplete(BatchTranslate(env.translate, texts, language)))
    case Diarizing(audio) => Some(DiarizationComplete(env.diarize(audio), env.dubOut))
    case Synthesizing(job) =>
      match DubRun(job, env.policy, env.tts).finished
      case None => None
      case Some(path) => Some(TtsComplete(path, env.merge(w.video, path)))
  }

  /** The window once the running worker's event has been handled; unchanged when nothing runs. */
  function Next(w: Window, env: Env): Window {
    match WorkerEvent(w, env)
    case None => w
    case Some(e) => Step(w, e)
  }

  /** The stage names, for stating an order. */
  datatype Kind = KIdle | KExtract | KTranscribe | KTranslate | KDiarize | KSynthesize

  function KindOf(s: Stage): Kind {
    match s
    case Idle => KIdle
    case Extracting(_, _) => KExtract
    case Transcribing(_) => KTranscribe
    case Translating(_, _) => KTranslate
    case Diarizing(_) => KDiarize
    case Synthesizing(_) => KSynthesize
  }

  /** The stages the window passes through, by name, until nothing more runs, at most `fuel` of them. */
  function Chain(w: Window, env: Env, fuel: nat): (trace: seq<Kind>)
    decreases fuel
  {
    if fuel == 0 || WorkerEvent(w, env).None? then []
    else [KindOf(Next(w, env).stage)] + Chain(Next(w, env), env, fuel - 1)
  }

  /** The stages after the user picks a file and the chain of workers runs its course. */
  function Run(w: Window, env: Env, path: string, audioOut: string): seq<Kind> {
    var start := Step(w, FileSelected(path, audioOut));
    [KindOf(start.stage)] + Chain(start, env, 6)
  }

  /** Extraction that succeeds hands its output path to transcription. */
  lemma AfterExtracting(w: Window, env: Env)
    requires w.stage.Extracting? && env.extract(w.stage.video)
    ensures WorkerEvent(w, env).Some?
    ensures Next(w, env).stage == Transcribing(w.stage.audioOut)
    ensures Next(w, env).language == w.language
  {
  }

  /** Extraction that fails leaves nothing running. */
  lemma AfterExtractingFails(w: Window, env: Env)
    requires w.stage.Extracting? && !env.extract(w.stage.video)
    ensures WorkerEvent(w, env).Some?
    ensures Next(w, env) == Step(w, AudioExtracted(false, ""))
    ensures WorkerEvent(Next(w, env), env).None?
  {
  }

  /** Transcription hands the recognised segments' texts to translation, with the session's language. */
  lemma AfterTranscribing(w: Window, env: Env)
    requires w.stage.Transcribing?
    ensures WorkerEvent(w, env).Some?
    ensures Next(w, env).stage == Translating(SourceTexts(env.transcribe(w.stage.audio)), w.language)
    ensures Next(w, env).transcript == env.transcribe(w.stage.audio)
  {
  }

  /** Translation attaches its result to the transcript and starts diarization. */
  lemma AfterTranslating(w: Window, env: Env)
    requires w.stage.Translating?
    ensures WorkerEvent(w, env).Some?
    ensures Next(w, env).stage.Diarizing?
    ensures Next(w, env).transcript == AttachTranslations(w.transcript, BatchTranslate(env.translate, w.stage.texts, w.stage.language))
  {
  }

  /** Diarization hands the transcript, a non-empty speaker list and what the rebuilt panel shows to the dubbing worker. */
  lemma AfterDiarizing(w: Window, env: Env)
    requires w.stage.Diarizing?
    ensures WorkerEvent(w, env).Some?
    ensures var n := Next(w, env);
      && n.stage.Synthesizing?
      && n.stage.job.transcript == w.transcript
      && |n.stage.job.speakers| > 0
      && (n.stage.job.voices, n.stage.job.emotions) == Gather(PanelRows(n.stage.job.speakers, w.voices))
  {
  }

  /** Dubbing that finishes leads to merging and back to idle; dubbing that dies leaves nothing more to run. */
  lemma AfterSynthesizing(w: Window, env: Env)
    requires w.stage.Synthesizing?
    ensures WorkerEvent(w, env).Some? <==> DubRun(w.stage.job, env.policy, env.tts).finished.Some?
    ensures WorkerEvent(w, env).Some? ==> Next(w, env).stage == Idle
  {
  }

  /** No worker changes the voice list the panel offers. */
  lemma NextKeepsVoices(w: Window, env: Env)
    ensures Next(w, env).voices == w.voices
  {
  }

  /** One link of the chain. */
  lemma ChainNext(w: Window, env: Env, fuel: nat)
    requires fuel > 0 && WorkerEvent(w, env).Some?
    ensures Chain(w, env, fuel) == [KindOf(Next(w, env).stage)] + Chain(Next(w, env), env, fuel - 1)
  {
  }

  /**
   * A file whose audio cannot be extracted stops the chain right after
   * extraction, with the audio path cleared and the inputs enabled again.
   */
  lemma ExtractionFailureStops(w: Window, env: Env, path: string, audioOut: string)
    requires !env.extract(path)
    ensures Run(w, env, path, audioOut) == [KExtract, KIdle]
    ensures var r := Next(Step(w, FileSelected(path, audioOut)), env);
      r.audio.None? && r.controls && r.progress == 0
  {
    var s1 := Step(w, FileSelected(path, audioOut));
    AfterExtractingFails(s1, env);
    ChainNext(s1, env, 6);
  }

  /** The window when dubbing starts, in a run whose extraction succeeds. */
  function AtDubbing(w: Window, env: Env, path: string, audioOut: string): Window {
    Next(Next(Next(Next(Step(w, FileSelected(path, audioOut)), env), env), env), env)
  }

  /** From diarization the chain moves on to dubbing. */
  lemma ChainFromDiarizing(w: Window, env: Env)
    requires w.stage.Diarizing?
    ensures Chain(w, env, 3) == [KSynthesize] + Chain(Next(w, env), env, 2)
  {
    AfterDiarizing(w, env);
    ChainNext(w, env, 3);
  }

  /** From translation the chain moves on to diarization and dubbing. */
  lemma ChainFromTranslating(w: Window, env: Env)
    requires w.stage.Translating?
    ensures Chain(w, env, 4) == [KDiarize, KSynthesize] + Chain(Next(Next(w, env), env), env, 2)
  {
    AfterTranslating(w, env);
    ChainNext(w, env, 4);
    ChainFromDiarizing(Next(w, env), env);
  }

  /** From transcription the chain moves on to translation, diarization and dubbing. */
  lemma ChainFromTranscribing(w: Window, env: Env)
    requires w.stage.Transcribing?
    ensures Chain(w, env, 5) == [KTranslate, KDiarize, KSynthesize] + Chain(Next(Next(Next(w, env), env), env), env, 2)
  {
    AfterTranscribing(w, env);
    ChainNext(w, env, 5);
    ChainFromTranslating(Next(w, env), env);
  }

  /**
   * Up to dubbing, the chain visits extraction, transcription, translation,
   * diarization and synthesis in that order.
   */
  lemma ChainUpToDubbing(w: Window, env: Env, path: string, audioOut: string)
    requires env.extract(path)
    ensures Run(w, env, path, audioOut) == [KExtract, KTranscribe, KTranslate, KDiarize, KSynthesize] + Chain(AtDubbing(w, env, path, audioOut), env, 2)
  {
    var s1 := Step(w, FileSelected(path, audioOut));
    AfterExtracting(s1, env);
    ChainNext(s1, env, 6);
    ChainFromTranscribing(Next(s1, env), env);
  }

  /**
   * The dubbing worker is given the recognised segments with their
   * translations attached, a non-empty speaker list, and the voices and
   * emotions of the panel rebuilt for that list.
   */
  lemma DubbingInputs(w: Window, env: Env, path: string, audioOut: string)
    requires env.extract(path)
    ensures var d := AtDubbing(w, env, path, audioOut);
      && d.stage.Synthesizing?
      && d.stage.job.transcript == AttachTranslations(env.transcribe(audioOut),
           BatchTranslate(env.translate, SourceTexts(env.transcribe(audioOut)), w.language))
      && |d.stage.job.speakers| > 0
      && (d.stage.job.voices, d.stage.job.emotions) == Gather(PanelRows(d.stage.job.speakers, w.voices))
  {
    var s1 := Step(w, FileSelected(path, audioOut));
    var s2 := Next(s1, env);
    var s3 := Next(s2, env);
    var s4 := Next(s3, env);
    AfterExtracting(s1, env);
    AfterTranscribing(s2, env);
    AfterTranslating(s3, env);
    AfterDiarizing(s4, env);
    NextKeepsVoices(s1, env);
    NextKeepsVoices(s2, env);
    NextKeepsVoices(s3, env);
  }

  /**
   * In the chain, every recognised segment is dubbed in the first voice the
   * panel offers with the intended lookup, and with emotion `Neutral`: the
   * panel is read right after it is rebuilt, so no other choice reaches the
   * worker.
   */
  lemma DubbedInFirstVoice(w: Window, env: Env, path: string, audioOut: string)
    requires env.extract(path)
    requires forall k :: 0 <= k < |env.transcribe(audioOut)| ==> env.transcribe(audioOut)[k].speaker.None?
    ensures var job := DubJob(w, env, path, audioOut);
      forall k :: 0 <= k < |job.transcript| ==>
        && RequestFor(job, Intended, job.transcript[k]).Some?
        && RequestFor(job, Intended, job.transcript[k]).value.voice == PanelVoices(w.voices)[0]
        && RequestFor(job, Intended, job.transcript[k]).value.emotion == Some("Neutral")
  {
    DubbingInputs(w, env, path, audioOut);
    var job := DubJob(w, env, path, audioOut);
    var segs := env.transcribe(audioOut);
    AttachSpec(segs, BatchTranslate(env.translate, SourceTexts(segs), w.language), 0);
    PanelDefaultsEverywhere(job.speakers, w.voices, job.speakers[0]);
    var attached := AttachTranslations(segs, BatchTranslate(env.translate, SourceTexts(segs), w.language));
    assert job.transcript == attached;
    forall k | 0 <= k < |job.transcript|
      ensures SpeakerFor(job.transcript[k], job.speakers) == job.speakers[0]
    {
      assert attached[k].speaker == segs[k].speaker;
    }
  }

  /** The job the dubbing worker is given in a run whose extraction succeeds. */
  function DubJob(w: Window, env: Env, path: string, audioOut: string): Job {
    var d := AtDubbing(w, env, path, audioOut);
    if d.stage.Synthesizing? then d.stage.job else Job([], [], [], [], "")
  }

  /**
   * With extraction and dubbing succeeding, the stages run in the order
   * extract, transcribe, translate, diarize, synthesize, and the window
   * ends idle after merging.
   */
  lemma StageOrder(w: Window, env: Env, path: string, audioOut: string)
    requires env.extract(path)
    requires DubRun(DubJob(w, env, path, audioOut), env.policy, env.tts).finished.Some?
    ensures Run(w, env, path, audioOut) == [KExtract, KTranscribe, KTranslate, KDiarize, KSynthesize, KIdle]
  {
    ChainUpToDubbing(w, env, path, audioOut);
    DubbingInputs(w, env, path, audioOut);
    var d := AtDubbing(w, env, path, audioOut);
    AfterSynthesizing(d, env);
    ChainNext(d, env, 2);
  }

  /**
   * As written, once transcription yields a segment, the chain stalls in
   * synthesis: segments from the recogniser carry no speaker, so the first
   * falls back to a listed speaker and its voice lookup raises.
   */
  lemma StageChainStallsAsWritten(w: Window, env: Env, path: string, audioOut: string)
    requires env.extract(path) && env.policy == AsWritten
    requires var segs := env.transcribe(audioOut); |segs| > 0 && segs[0].speaker.None?
    ensures Run(w, env, path, audioOut) == [KExtract, KTranscribe, KTranslate, KDiarize, KSynthesize]
  {
    ChainUpToDubbing(w, env, path, audioOut);
    DubbingInputs(w, env, path, audioOut);
    var d := AtDubbing(w, env, path, audioOut);
    AttachSpec(env.transcribe(audioOut), BatchTranslate(env.translate, SourceTexts(env.transcribe(audioOut)), w.language), 0);
    DubAsWrittenNeverFinishes(d.stage.job, env.tts);
    AfterSynthesizing(d, env);
  }

  /**
   * With the intended voice lookup and a synthesiser that never fails, the
   * chain runs to the end.
   */
  lemma StageChainCompletesIntended(w: Window, env: Env, path: string, audioOut: string, synth: Synth)
    requires env.extract(path) && env.policy == Intended && env.tts == Some(synth)
    requires forall text, voice :: synth(text, voice).Some?
    ensures Run(w, env, path, audioOut) == [KExtract, KTranscribe, KTranslate, KDiarize, KSynthesize, KIdle]
  {
    DubbingInputs(w, env, path, audioOut);
    var job := DubJob(w, env, path, audioOut);
    assert |job.voices| > 0 by {
      PanelDefaultsEverywhere(job.speakers, w.voices, job.speakers[0]);
      ResolveVoiceSpec(job.voices, job.speakers, job.speakers[0]);
    }
    DubIntendedFinishes(job, synth);
    StageOrder(w, env, path, audioOut);
  }

  /**
   * The translation handler first shows 60 and then, starting diarization,
   * drops the bar to 20, below the 55 the transcription handler left:
   * diarization runs after translation, while its progress values belong
   * before it.
   */
  lemma ProgressFallsAtDiarization(w: Window, segments: seq<Seg>, texts: seq<string>)
    ensures Step(w, TranscriptionComplete(segments)).progress == 55
    ensures Shown(TranslationComplete(texts)) == [60, 20]
    ensures Step(Step(w, TranscriptionComplete(segments)), TranslationComplete(texts)).progress == 20
  {
  }
}

=== FILE: Speech.dfy ===
/**
 * Speech synthesis helpers. The text-to-speech library is a parameter:
 * `None` when it could not be imported, otherwise a function from a text
 * and a voice to the path of the clip it wrote, or `None` when it raises.
 */
module Speech {
  import opened Wrappers

  /** A loaded synthesiser: text and voice to a clip path, `None` on an exception. */
  type Synth = (string, string) -> Option<string>

  /** One call of `synthesize_speech`. */
  datatype Request = Request(text: string, voice: string, emotion: Option<string>)

  /**
   * `synthesize_speech(text, voice, emotion)`: raises when the library is
   * missing; the emotion is accepted but not passed on.
   */
  function SynthesizeSpeech(tts: Option<Synth>, req: Request): (r: Option<string>)
    ensures tts.None? ==> r.None?
    ensures tts.Some? ==> r == tts.value(req.text, req.voice)
  {
    match tts
    case None => None
    case Some(synth) => synth(req.text, req.voice)
  }

  /** Two requests that differ only in their emotion give the same clip. */
  lemma EmotionIgnored(tts: Option<Synth>, text: string, voice: string, e1: Option<string>, e2: Option<string>)
    ensures SynthesizeSpeech(tts, Request(text, voice, e1)) == SynthesizeSpeech(tts, Request(text, voice, e2))
  {
  }

  /** The sentence `preview_voice` speaks. */
  const PreviewText: string := "This is a sample preview of the selected voice."

  /** `preview_voice(voice, emotion)`: the sample sentence in that voice. */
  function PreviewVoice(tts: Option<Synth>, voice: string, emotion: Option<string>): (r: Option<string>)
    ensures tts.None? ==> r.None?
    ensures tts.Some? ==> r == tts.value(PreviewText, voice)
  {
    SynthesizeSpeech(tts, Request(PreviewText, voice, emotion))
  }

  /** `emotions[i] if emotions and i < len(emotions) else None`. */
  function EmotionAt(emotions: Option<seq<string>>, i: nat): Option<string> {
    if emotions.Some? && |emotions.value| > 0 && i < |emotions.value| then Some(emotions.value[i]) else None
  }

  /** The emptiness test is subsumed by the bound: position `i` has an emotion exactly when the list reaches it. */
  lemma EmotionRule(emotions: Option<seq<string>>, i: nat)
    ensures EmotionAt(emotions, i).Some? <==> emotions.Some? && i < |emotions.value|
    ensures EmotionAt(emotions, i).Some? ==> EmotionAt(emotions, i).value == emotions.value[i]
  {
  }

  function Min(a: nat, b: nat): nat {
    if a <= b then a else b
  }

  /** The calls made by the loop over `zip(texts, voices)`, from position `i` on. */
  function RequestsFrom(texts: seq<string>, voices: seq<string>, emotions: Option<seq<string>>, i: nat): (reqs: seq<Request>)
    requires i <= Min(|texts|, |voices|)
    ensures |reqs| == Min(|texts|, |voices|) - i
    ensures forall k :: 0 <= k < |reqs| ==> reqs[k] == Request(texts[i + k], voices[i + k], EmotionAt(emotions, i + k))
    decreases Min(|texts|, |voices|) - i
  {
    if i == Min(|texts|, |voices|) then []
    else [Request(texts[i], voices[i], EmotionAt(emotions, i))] + RequestsFrom(texts, voices, emotions, i + 1)
  }

  /** The calls `batch_synthesize_speech` makes, in order. */
  function Requests(texts: seq<string>, voices: seq<string>, emotions: Option<seq<string>>): seq<Request> {
    RequestsFrom(texts, voices, emotions, 0)
  }

  /** Runs the calls in order; the first exception ends the batch and nothing is returned. */
  function RunAll(tts: Option<Synth>, reqs: seq<Request>): Option<seq<string>>
    decreases |reqs|
  {
    if |reqs| == 0 then Some([])
    else match SynthesizeSpeech(tts, reqs[0])
      case None => None
      case Some(path) =>
        match RunAll(tts, reqs[1..])
        case None => None
        case Some(rest) => Some([path] + rest)
  }

  /** Every call succeeds. */
  predicate AllSucceed(tts: Option<Synth>, reqs: seq<Request>) {
    forall k :: 0 <= k < |reqs| ==> SynthesizeSpeech(tts, reqs[k]).Some?
  }

  /** The batch returns a value exactly when every call succeeds, and then one path per call, in call order. */
  lemma {:induction false} RunAllSpec(tts: Option<Synth>, reqs: seq<Request>)
    ensures RunAll(tts, reqs).Some? <==> AllSucceed(tts, reqs)
    ensures RunAll(tts, reqs).Some? ==>
      && |RunAll(tts, reqs).value| == |reqs|
      && forall k :: 0 <= k < |reqs| ==> RunAll(tts, reqs).value[k] == SynthesizeSpeech(tts, reqs[k]).value
    decreases |reqs|
  {
    if |reqs| > 0 {
      RunAllSpec(tts, reqs[1..]);
      assert forall k :: 1 <= k < |reqs| ==> reqs[1..][k - 1] == reqs[k];
      if !AllSucceed(tts, reqs[1..]) {
        var k :| 0 <= k < |reqs[1..]| && SynthesizeSpeech(tts, reqs[1..][k]).None?;
        assert SynthesizeSpeech(tts, reqs[k + 1]).None?;
      }
    }
  }

  /** `batch_synthesize_speech(texts, voices, emotions)`. */
  function BatchSynthesize(tts: Option<Synth>, texts: seq<string>, voices: seq<string>, emotions: Option<seq<string>>): Option<seq<string>> {
    RunAll(tts, Requests(texts, voices, emotions))
  }

  /**
   * A batch that succeeds returns `min(|texts|, |voices|)` paths, path `i`
   * being the clip of text `i` in voice `i`; surplus texts or voices are not
   * spoken.
   */
  lemma BatchPaths(tts: Option<Synth>, texts: seq<string>, voices: seq<string>, emotions: Option<seq<string>>)
    ensures var r := BatchSynthesize(tts, texts, voices, emotions);
      r.Some? ==>
        && |r.value| == Min(|texts|, |voices|)
        && forall i :: 0 <= i < |r.value| ==> Some(r.value[i]) == tts.value(texts[i], voices[i])
  {
    var reqs := Requests(texts, voices, emotions);
    RunAllSpec(tts, reqs);
    if BatchSynthesize(tts, texts, voices, emotions).Some? && |reqs| > 0 {
      assert SynthesizeSpeech(tts, reqs[0]).Some?;
    }
  }

  /** Call `i` carries text `i`, voice `i` and the emotion the rule assigns to position `i`. */
  lemma BatchCalls(texts: seq<string>, voices: seq<string>, emotions: Option<seq<string>>, i: nat)
    requires i < |texts| && i < |voices|
    ensures i < |Requests(texts, voices, emotions)|
    ensures Requests(texts, voices, emotions)[i] == Request(texts[i], voices[i], EmotionAt(emotions, i))
  {
  }

  /** With no texts or no voices nothing is synthesised, so even a missing library gives an empty result. */
  lemma BatchEmpty(tts: Option<Synth>, texts: seq<string>, voices: seq<string>, emotions: Option<seq<string>>)
    requires |texts| == 0 || |voices| == 0
    ensures BatchSynthesize(tts, texts, voices, emotions) == Some([])
  {
  }

  /** With the library missing, any batch with something to say fails. */
  lemma BatchUnavailable(texts: seq<string>, voices: seq<string>, emotions: Option<seq<string>>)
    requires |texts| > 0 && |voices| > 0
    ensures BatchSynthesize(None, texts, voices, emotions).None?
  {
  }
}

=== FILE: Strings.dfy ===
/**
 * The few Python string built-ins the model relies on, stated over `seq<char>`:
 * `str.isspace`, `str.strip`, `str.split(sep)`, `sep.join`, decimal
 * rendering with zero padding (`f"{n:02}"`) and `int(s)` in base 10.
 */
module Strings {
  import opened Wrappers

  /** `c.isspace()` in Python; the regular-expression class `\s` on a str pattern is the same set. */
  predicate IsSpace(c: char) {
    var n := c as int;
    (9 <= n <= 13) || (28 <= n <= 32) || n == 0x85 || n == 0xA0 || n == 0x1680
    || (0x2000 <= n <= 0x200A) || n == 0x2028 || n == 0x2029 || n == 0x202F
    || n == 0x205F || n == 0x3000
  }

  predicate IsDigit(c: char) {
    '0' <= c <= '9'
  }

  predicate AllDigits(s: string) {
    forall k :: 0 <= k < |s| ==> IsDigit(s[k])
  }

  /** A decimal digit is not white space. */
  lemma DigitNotSpace(c: char)
    requires IsDigit(c)
    ensures !IsSpace(c)
  {
  }

  /** No character of `s` is `c`. */
  predicate Avoids(s: string, c: char) {
    forall k :: 0 <= k < |s| ==> s[k] != c
  }

  /** Two strings without `c` make one without `c`. */
  lemma AvoidsJoin(a: string, b: string, c: char)
    requires Avoids(a, c) && Avoids(b, c)
    ensures Avoids(a + b, c)
  {
    forall k | 0 <= k < |a + b|
      ensures (a + b)[k] != c
    {
      if k < |a| {
        assert (a + b)[k] == a[k];
      } else {
        assert (a + b)[k] == b[k - |a|];
      }
    }
  }

  /** Neither end of `s` is white space, so `str.strip` leaves it alone. */
  predicate Trimmed(s: string) {
    |s| == 0 || (!IsSpace(s[0]) && !IsSpace(s[|s| - 1]))
  }

  // ---------------------------------------------------------------- strip

  /** Number of white-space characters at the front of `s`. */
  function LeadingSpace(s: string): (n: nat)
    ensures n <= |s|
    ensures forall k :: 0 <= k < n ==> IsSpace(s[k])
    ensures n < |s| ==> !IsSpace(s[n])
  {
    if |s| == 0 || !IsSpace(s[0]) then 0 else 1 + LeadingSpace(s[1..])
  }

  /** Index where the white-space tail of `s` begins. */
  function TrailingStart(s: string): (n: nat)
    ensures n <= |s|
    ensures forall k :: n <= k < |s| ==> IsSpace(s[k])
    ensures 0 < n ==> !IsSpace(s[n - 1])
  {
    if |s| == 0 || !IsSpace(s[|s| - 1]) then |s| else TrailingStart(s[..|s| - 1])
  }

  /** `s.strip()`: drops white space at both ends and nothing else (see `StripSpec`). */
  function Strip(s: string): (r: string)
    ensures Trimmed(r)
    ensures Trimmed(s) ==> r == s
  {
    var i := LeadingSpace(s);
    var rest := s[i..];
    var j := TrailingStart(rest);
    assert j > 0 ==> rest[0] == s[i] && !IsSpace(rest[0]);
    rest[..j]
  }

  /**
   * What `strip` keeps: the stretch of `s` after its leading white space,
   * followed in `s` only by white space, with white space at neither end.
   * Together these fix the result: only the white-space ends are dropped.
   */
  lemma StripSpec(s: string)
    ensures var r, i := Strip(s), LeadingSpace(s);
      && Trimmed(r)
      && i + |r| <= |s| && r == s[i..i + |r|]
      && (forall k :: 0 <= k < i ==> IsSpace(s[k]))
      && (forall k :: i + |r| <= k < |s| ==> IsSpace(s[k]))
  {
    var i := LeadingSpace(s);
    var rest := s[i..];
    var j := TrailingStart(rest);
    assert Strip(s) == rest[..j];
    assert rest[..j] == s[i..i + j];
    TailIsSpace(s, i, j);
  }

  lemma TailIsSpace(s: string, i: nat, j: nat)
    requires i <= |s| && j <= |s| - i
    requires forall k :: j <= k < |s[i..]| ==> IsSpace(s[i..][k])
    ensures forall k :: i + j <= k < |s| ==> IsSpace(s[k])
  {
    forall k | i + j <= k < |s|
      ensures IsSpace(s[k])
    {
      assert s[k] == s[i..][k - i];
    }
  }

  /** Stripping removes characters and adds none. */
  lemma StripAvoids(s: string, c: char)
    requires Avoids(s, c)
    ensures Avoids(Strip(s), c)
  {
    var i := LeadingSpace(s);
    var rest := s[i..];
    var j := TrailingStart(rest);
    assert Strip(s) == rest[..j];
    forall k | 0 <= k < j
      ensures rest[..j][k] != c
    {
      assert rest[..j][k] == s[i + k];
    }
  }

  // ---------------------------------------------------------------- split / join

  predicate OccursAt(s: string, sep: string, i: nat) {
    i + |sep| <= |s| && s[i..i + |sep|] == sep
  }

  /** Leftmost occurrence of `sep` in `s` at or after `i`. */
  function FindFrom(s: string, sep: string, i: nat): (r: Option<nat>)
    requires |sep| > 0
    ensures r.Some? ==> i <= r.value && r.value + |sep| <= |s|
    decreases |s| - i
  {
    if i + |sep| > |s| then None
    else if OccursAt(s, sep, i) then Some(i)
    else FindFrom(s, sep, i + 1)
  }

  /** What `FindFrom` finds is an occurrence. */
  lemma {:induction false} FindFromFound(s: string, sep: string, i: nat)
    requires |sep| > 0
    ensures FindFrom(s, sep, i).Some? ==> OccursAt(s, sep, FindFrom(s, sep, i).value)
    decreases |s| - i
  {
    if i + |sep| <= |s| && !OccursAt(s, sep, i) {
      FindFromFound(s, sep, i + 1);
    }
  }

  /** When no occurrence starts in `[i, j)`, searching from `i` is searching from `j`. */
  lemma {:induction false} FindFromSkip(s: string, sep: string, i: nat, j: nat)
    requires |sep| > 0 && i <= j
    requires forall k :: i <= k < j ==> !OccursAt(s, sep, k)
    ensures FindFrom(s, sep, i) == FindFrom(s, sep, j)
    decreases j - i
  {
    if i < j && i + |sep| <= |s| {
      FindFromSkip(s, sep, i + 1, j);
    }
  }

  /** `s.split(sep)` for a non-empty separator: pieces between non-overlapping leftmost occurrences. */
  function SplitOn(s: string, sep: string): (parts: seq<string>)
    requires |sep| > 0
    ensures |parts| >= 1
    decreases |s|
  {
    match FindFrom(s, sep, 0)
    case None => [s]
    case Some(i) => [s[..i]] + SplitOn(s[i + |sep|..], sep)
  }

  lemma Associative<T>(a: seq<T>, b: seq<T>, c: seq<T>)
    ensures a + (b + c) == a + b + c
  {
  }

  /** `sep.join(parts)`. */
  function Join(sep: string, parts: seq<string>): string
    decreases |parts|
  {
    if |parts| == 0 then ""
    else if |parts| == 1 then parts[0]
    else parts[0] + sep + Join(sep, parts[1..])
  }

  /** Joining the pieces of a split with the same separator gives the string back. */
  lemma {:induction false} JoinSplit(s: string, sep: string)
    requires |sep| > 0
    ensures Join(sep, SplitOn(s, sep)) == s
    decreases |s|
  {
    var r := FindFrom(s, sep, 0);
    FindFromFound(s, sep, 0);
    if r.None? {
      assert SplitOn(s, sep) == [s];
    } else {
      var i := r.value;
      var rest := s[i + |sep|..];
      var tail := SplitOn(rest, sep);
      assert SplitOn(s, sep) == [s[..i]] + tail;
      JoinSplit(rest, sep);
      JoinCons(sep, s[..i], tail);
      assert s[i..i + |sep|] == sep;
      assert s == s[..i] + s[i..i + |sep|] + rest;
    }
  }

  lemma JoinCons(sep: string, head: string, tail: seq<string>)
    requires |tail| >= 1
    ensures Join(sep, [head] + tail) == head + sep + Join(sep, tail)
  {
    assert ([head] + tail)[1..] == tail;
  }

  lemma JoinTwo(sep: string, a: string, b: string)
    ensures Join(sep, [a, b]) == a + sep + b
  {
    assert [a, b][1..] == [b];
  }

  /** Splitting a join gives the parts back when no part holds the separator's first character. */
  lemma {:induction false} SplitJoin(sep: string, parts: seq<string>)
    requires |sep| > 0 && |parts| >= 1
    requires forall k :: 0 <= k < |parts| ==> Avoids(parts[k], sep[0])
    ensures SplitOn(Join(sep, parts), sep) == parts
    decreases |parts|
  {
    if |parts| == 1 {
      SplitOnAbsent(parts[0], sep);
    } else {
      var tail := parts[1..];
      assert forall k :: 0 <= k < |tail| ==> tail[k] == parts[k + 1];
      SplitJoin(sep, tail);
      SplitOnFirst(parts[0], sep, Join(sep, tail));
      assert parts == [parts[0]] + tail;
    }
  }

  /** A string that does not contain the separator's first character is not split. */
  lemma SplitOnAbsent(s: string, sep: string)
    requires |sep| > 0 && Avoids(s, sep[0])
    ensures SplitOn(s, sep) == [s]
  {
    forall k | 0 <= k
      ensures !OccursAt(s, sep, k)
    {
      if k + |sep| <= |s| {
        assert s[k..k + |sep|][0] != sep[0];
      }
    }
    FindFromSkip(s, sep, 0, |s| + 1);
  }

  /** Splitting `a + sep + b` cuts exactly after `a` when `a` cannot start an occurrence. */
  lemma SplitOnFirst(a: string, sep: string, b: string)
    requires |sep| > 0 && Avoids(a, sep[0])
    ensures SplitOn(a + sep + b, sep) == [a] + SplitOn(b, sep)
  {
    var s := a + sep + b;
    assert OccursAt(s, sep, |a|) by {
      assert s[|a|..|a| + |sep|] == sep;
    }
    forall k | 0 <= k < |a|
      ensures !OccursAt(s, sep, k)
    {
      if k + |sep| <= |s| {
        assert s[k..k + |sep|][0] == a[k] != sep[0];
      }
    }
    FindFromSkip(s, sep, 0, |a|);
    assert FindFrom(s, sep, 0) == Some(|a|);
    assert s[..|a|] == a;
    assert s[|a| + |sep|..] == b;
  }

  // ---------------------------------------------------------------- decimal numbers

  function DigitChar(d: nat): (c: char)
    requires d < 10
    ensures IsDigit(c)
  {
    (48 + d) as char
  }

  function DigitValue(c: char): nat
    requires IsDigit(c)
  {
    c as int - 48
  }

  /** The shortest decimal spelling of `n` (`str(n)`). */
  function Decimal(n: nat): (s: string)
    ensures 1 <= |s| && AllDigits(s)
  {
    if n < 10 then [DigitChar(n)] else Decimal(n / 10) + [DigitChar(n % 10)]
  }

  /** Value of a string of decimal digits; leading zeros are allowed. */
  function DigitsValue(s: string): nat
    requires AllDigits(s)
  {
    if |s| == 0 then 0 else 10 * DigitsValue(s[..|s| - 1]) + DigitValue(s[|s| - 1])
  }

  function Zeros(k: nat): (s: string)
    ensures |s| == k && AllDigits(s)
    ensures forall i :: 0 <= i < k ==> s[i] == '0'
  {
    if k == 0 then "" else "0" + Zeros(k - 1)
  }

  /** `f"{n:0{width}}"`: the decimal spelling of `n`, zero-filled on the left to at least `width` characters. */
  function ZeroPad(n: nat, width: nat): (s: string)
    ensures AllDigits(s)
    ensures |s| == if |Decimal(n)| < width then width else |Decimal(n)|
  {
    var d := Decimal(n);
    if |d| < width then Zeros(width - |d|) + d else d
  }

  /**
   * `f"{n:0{width}}"` for any integer: a minus sign in front of a negative
   * number counts toward the width, and zeros fill in after the sign.
   */
  function PadInt(n: int, width: nat): string {
    if n >= 0 then ZeroPad(n, width) else "-" + ZeroPad(-n, if width > 0 then width - 1 else 0)
  }

  function Pow10(k: nat): (p: nat)
    ensures p >= 1
  {
    if k == 0 then 1 else 10 * Pow10(k - 1)
  }

  lemma {:induction false} DecimalValue(n: nat)
    ensures DigitsValue(Decimal(n)) == n
  {
    if n >= 10 {
      DecimalValue(n / 10);
      var d := Decimal(n);
      assert d[..|d| - 1] == Decimal(n / 10);
    }
  }

  lemma {:induction false} DigitsValueAppend(a: string, b: string)
    requires AllDigits(a) && AllDigits(b)
    ensures AllDigits(a + b) && DigitsValue(a + b) == DigitsValue(a) * Pow10(|b|) + DigitsValue(b)
    decreases |b|
  {
    if |b| == 0 {
      assert a + b == a;
    } else {
      var b' := b[..|b| - 1];
      AppendLast(a, b);
      DigitsValueAppend(a, b');
      ShiftDigit(DigitsValue(a), Pow10(|b'|), DigitsValue(b'), DigitValue(b[|b| - 1]));
    }
  }

  /** The last digit of `a + b` is the last digit of `b`. */
  lemma AppendLast(a: string, b: string)
    requires AllDigits(a) && AllDigits(b) && |b| > 0
    ensures AllDigits(a + b) && AllDigits(a + b[..|b| - 1])
    ensures DigitsValue(a + b) == 10 * DigitsValue(a + b[..|b| - 1]) + DigitValue(b[|b| - 1])
  {
    var ab := a + b;
    var init := b[..|b| - 1];
    DigitsJoin(a, b);
    assert AllDigits(init) by {
      forall k | 0 <= k < |init|
        ensures IsDigit(init[k])
      {
        assert init[k] == b[k];
      }
    }
    DigitsJoin(a, init);
    assert ab[..|ab| - 1] == a + init;
    assert ab[|ab| - 1] == b[|b| - 1];
    DigitsValueLast(ab);
  }

  /** The value of a non-empty run of digits, split at its last digit. */
  lemma DigitsValueLast(s: string)
    requires AllDigits(s) && |s| > 0
    ensures AllDigits(s[..|s| - 1])
    ensures DigitsValue(s) == 10 * DigitsValue(s[..|s| - 1]) + DigitValue(s[|s| - 1])
  {
  }

  lemma DigitsJoin(a: string, b: string)
    requires AllDigits(a) && AllDigits(b)
    ensures AllDigits(a + b)
  {
    forall k | 0 <= k < |a + b|
      ensures IsDigit((a + b)[k])
    {
      if k < |a| {
        assert (a + b)[k] == a[k];
      } else {
        assert (a + b)[k] == b[k - |a|];
      }
    }
  }

  lemma ShiftDigit(x: int, p: int, y: int, d: int)
    ensures 10 * (x * p + y) + d == x * (10 * p) + (10 * y + d)
  {
  }

  lemma {:induction false} ZerosValue(k: nat)
    ensures DigitsValue(Zeros(k)) == 0
  {
    if k > 0 {
      DigitsValueAppend("0", Zeros(k - 1));
      ZerosValue(k - 1);
    }
  }

  /** Zero padding does not change the value that the digits spell. */
  lemma ZeroPadValue(n: nat, width: nat)
    ensures DigitsValue(ZeroPad(n, width)) == n
  {
    var d := Decimal(n);
    DecimalValue(n);
    if |d| < width {
      ZerosValue(width - |d|);
      LeadingZeros(Zeros(width - |d|), d);
    }
  }

  /** Digits worth nothing in front of others leave their value unchanged. */
  lemma LeadingZeros(z: string, d: string)
    requires AllDigits(z) && AllDigits(d) && DigitsValue(z) == 0
    ensures DigitsValue(z + d) == DigitsValue(d)
  {
    DigitsValueAppend(z, d);
  }

  /** A number below 10^w needs at most w digits. */
  lemma {:induction false} DecimalLength(n: nat, w: nat)
    requires 1 <= w && n < Pow10(w)
    ensures |Decimal(n)| <= w
  {
    if n >= 10 {
      DecimalLength(n / 10, w - 1);
    }
  }

  // ---------------------------------------------------------------- int(s)

  /**
   * `int(s)` in base 10: surrounding white space is ignored, one optional sign,
   * then one or more ASCII digits; anything else raises `ValueError` (`None` here).
   */
  function ParseInt(s: string): (r: Option<int>)
    ensures AllDigits(s) && |s| > 0 ==> r == Some(DigitsValue(s))
  {
    var t := Strip(s);
    if |t| == 0 then None
    else
      var negative := t[0] == '-';
      var body := if t[0] == '+' || t[0] == '-' then t[1..] else t;
      if |body| == 0 || !AllDigits(body) then None
      else if negative then Some(-(DigitsValue(body) as int))
      else Some(DigitsValue(body))
  }
}

=== FILE: Subtitles.dfy ===
/**
 * The SubRip writer and reader of the subtitle module. Writing a file is
 * modelled as building its text; reading one as splitting a text that may be
 * missing (`None` when the file cannot be opened).
 */
module Subtitles {
  import opened Wrappers
  import opened Strings
  import opened Timestamp

  /**
   * A transcript segment as `generate_srt` reads it: times in seconds, text,
   * and an optional speaker id, the integer key of `speaker_names`. The main
   * window's segments (`Dubbing.Seg`) carry a speaker label instead.
   */
  datatype Segment = Segment(start: real, end: real, text: string, speaker: Option<int>)

  /** A segment as `parse_srt` returns it: start, end and text only. */
  datatype Cue = Cue(start: real, end: real, text: string)

  // ---------------------------------------------------------------- writing

  /**
   * `[name] ` in front of the text when the speaker id has a name. An absent
   * or empty name table (both falsy) gives no prefix; for an empty map the
   * membership test alone already fails.
   */
  function SpeakerPrefix(names: map<int, string>, speaker: Option<int>): (r: string)
    ensures r != "" <==> |names| > 0 && speaker.Some? && speaker.value in names
    ensures r != "" ==> r == "[" + names[speaker.value] + "] "
  {
    if speaker.Some? && speaker.value in names then "[" + names[speaker.value] + "] " else ""
  }

  /** The third line of a block: the speaker prefix and the text. */
  function TextLine(seg: Segment, names: map<int, string>): string {
    SpeakerPrefix(names, seg.speaker) + seg.text
  }

  /** What one block prints: its number, the clocks of both times and the text line. */
  datatype Entry = Entry(number: nat, start: Clock, end: Clock, line: string)

  /** What block `i` prints for a segment. */
  function EntryOf(i: nat, seg: Segment, names: map<int, string>): Entry {
    Entry(i, SplitSeconds(seg.start), SplitSeconds(seg.end), TextLine(seg, names))
  }

  /** The entries of `segs`, numbered from 1 as `enumerate(segments, 1)` does. */
  function Entries(segs: seq<Segment>, names: map<int, string>): seq<Entry> {
    seq(|segs|, k requires 0 <= k < |segs| => EntryOf(k + 1, segs[k], names))
  }

  /** Three lines: index, `START --> END`, text. */
  function BodyText(idx: string, t1: string, t2: string, line: string): string {
    idx + "\n" + (t1 + " --> " + t2 + "\n" + line)
  }

  /** A block without its terminating blank line. */
  function EntryBody(e: Entry): string {
    BodyText(Decimal(e.number), Render(e.start), Render(e.end), e.line)
  }

  /** `f"{i}\n{start} --> {end}\n{speaker_str}{text}\n\n"`. */
  function BlockText(e: Entry): string {
    EntryBody(e) + "\n\n"
  }

  /** The blocks of `entries`, one after the other. */
  function Concat(entries: seq<Entry>): string
    decreases |entries|
  {
    if |entries| == 0 then "" else BlockText(entries[0]) + Concat(entries[1..])
  }

  /** The text `generate_srt` writes: one block per segment, in order. */
  function GenerateSrt(segs: seq<Segment>, names: map<int, string>): string {
    Concat(Entries(segs, names))
  }

  /** Block `i` of a segment: its number, both formatted times around ` --> `, the text line, a blank line. */
  lemma BlockOf(i: nat, seg: Segment, names: map<int, string>)
    ensures BlockText(EntryOf(i, seg, names))
      == Decimal(i) + "\n" + FormatTimestamp(seg.start) + " --> " + FormatTimestamp(seg.end) + "\n"
         + SpeakerPrefix(names, seg.speaker) + seg.text + "\n\n"
  {
    FormatRender(seg.start);
    FormatRender(seg.end);
    BlockLayout(Decimal(i), Render(SplitSeconds(seg.start)), Render(SplitSeconds(seg.end)),
      SpeakerPrefix(names, seg.speaker), seg.text);
  }

  lemma BlockLayout(idx: string, t1: string, t2: string, p: string, x: string)
    ensures BodyText(idx, t1, t2, p + x) + "\n\n" == idx + "\n" + t1 + " --> " + t2 + "\n" + p + x + "\n\n"
  {
  }

  /** No segments, no text. */
  lemma GenerateSrtEmpty(names: map<int, string>)
    ensures GenerateSrt([], names) == ""
  {
  }

  lemma {:induction false} ConcatAppend(entries: seq<Entry>, e: Entry)
    ensures Concat(entries + [e]) == Concat(entries) + BlockText(e)
    decreases |entries|
  {
    if |entries| == 0 {
      assert Concat([e]) == BlockText(e) + "";
    } else {
      var h, t := BlockText(entries[0]), Concat(entries[1..]);
      assert (entries + [e])[1..] == entries[1..] + [e];
      assert Concat(entries + [e]) == h + Concat(entries[1..] + [e]);
      ConcatAppend(entries[1..], e);
      Associative(h, t, BlockText(e));
    }
  }

  /** Adding a segment at the end adds exactly its block, numbered one past the others. */
  lemma GenerateSrtAppend(segs: seq<Segment>, seg: Segment, names: map<int, string>)
    ensures GenerateSrt(segs + [seg], names) == GenerateSrt(segs, names) + BlockText(EntryOf(|segs| + 1, seg, names))
  {
    assert Entries(segs + [seg], names) == Entries(segs, names) + [EntryOf(|segs| + 1, seg, names)];
    ConcatAppend(Entries(segs, names), EntryOf(|segs| + 1, seg, names));
  }

  /** Written text is empty or starts with a block number. */
  lemma ConcatHead(entries: seq<Entry>)
    ensures var t := Concat(entries); t == "" || IsDigit(t[0])
  {
    if |entries| > 0 {
      assert Concat(entries)[0] == Decimal(entries[0].number)[0];
    }
  }

  // ---------------------------------------------------------------- re.split(r"\n\s*\n")

  /** First index at or after `i` that is not white space, or `|s|`. */
  function RunEnd(s: string, i: nat): (e: nat)
    requires i <= |s|
    ensures i <= e <= |s|
    ensures forall k :: i <= k < e ==> IsSpace(s[k])
    ensures e < |s| ==> !IsSpace(s[e])
    decreases |s| - i
  {
    if i == |s| || !IsSpace(s[i]) then i else RunEnd(s, i + 1)
  }

  /** Last newline in `s[lo..hi]`. */
  function LastNewline(s: string, lo: nat, hi: nat): (r: Option<nat>)
    requires lo <= hi <= |s|
    ensures r.Some? ==> lo <= r.value < hi && s[r.value] == '\n'
    ensures r.None? ==> forall k :: lo <= k < hi ==> s[k] != '\n'
    decreases hi - lo
  {
    if lo == hi then None
    else if s[hi - 1] == '\n' then Some(hi - 1)
    else LastNewline(s, lo, hi - 1)
  }

  /**
   * End of a match of `\n\s*\n` starting at `p`, if any: a newline, then the
   * greedy `\s*` backs off to the last newline inside the white-space run
   * that follows, which the final `\n` consumes.
   */
  function MatchAt(s: string, p: nat): (r: Option<nat>)
    requires p <= |s|
    ensures r.Some? ==> p + 2 <= r.value <= |s|
  {
    if p < |s| && s[p] == '\n' then
      match LastNewline(s, p + 1, RunEnd(s, p + 1))
      case None => None
      case Some(q) => Some(q + 1)
    else None
  }

  /** Leftmost match at or after `p`, as (start, end). */
  function FirstMatchFrom(s: string, p: nat): (r: Option<(nat, nat)>)
    requires p <= |s|
    ensures r.Some? ==> p <= r.value.0 && r.value.0 + 2 <= r.value.1 <= |s|
    decreases |s| - p
  {
    if p == |s| then None
    else match MatchAt(s, p)
      case Some(e) => Some((p, e))
      case None => FirstMatchFrom(s, p + 1)
  }

  /** `re.split(r"\n\s*\n", s)`: the pieces between non-overlapping leftmost matches. */
  function SplitBlocks(s: string): (blocks: seq<string>)
    ensures |blocks| >= 1
    decreases |s|
  {
    match FirstMatchFrom(s, 0)
    case None => [s]
    case Some((p, e)) => [s[..p]] + SplitBlocks(s[e..])
  }

  /** No match starts in `[lo, hi)`. */
  predicate Quiet(s: string, lo: nat, hi: nat)
    requires lo <= hi <= |s|
  {
    forall p :: lo <= p < hi ==> MatchAt(s, p).None?
  }

  lemma {:induction false} FirstMatchSkip(s: string, lo: nat, hi: nat)
    requires lo <= hi <= |s| && Quiet(s, lo, hi)
    ensures FirstMatchFrom(s, lo) == FirstMatchFrom(s, hi)
    decreases hi - lo
  {
    if lo < hi {
      assert MatchAt(s, lo).None?;
      FirstMatchSkip(s, lo + 1, hi);
    }
  }

  /** A newline followed, before any other newline, by a non-space character does not start a match. */
  lemma NoMatchBeforeSolid(s: string, p: nat, j: nat)
    requires p < j < |s| && !IsSpace(s[j])
    requires forall k :: p < k < j ==> s[k] != '\n'
    ensures MatchAt(s, p).None?
  {
    if s[p] == '\n' {
      var e := RunEnd(s, p + 1);
      assert e <= j;
      assert LastNewline(s, p + 1, e).None?;
    }
  }

  /** Two newlines followed by the end of the text or a non-space character form one whole match. */
  lemma BlankLineMatch(s: string, p: nat)
    requires p + 2 <= |s| && s[p] == '\n' && s[p + 1] == '\n'
    requires p + 2 == |s| || !IsSpace(s[p + 2])
    ensures MatchAt(s, p) == Some(p + 2)
  {
    assert RunEnd(s, p + 2) == p + 2;
    assert RunEnd(s, p + 1) == p + 2;
    assert LastNewline(s, p + 1, p + 2) == Some(p + 1);
  }

  /** A line that holds no newline and ends in a non-space character. */
  predicate SingleLine(l: string) {
    |l| > 0 && Avoids(l, '\n') && !IsSpace(l[|l| - 1])
  }

  /** Inside `idx \n times \n line` no match starts. */
  lemma QuietBody(idx: string, times: string, line: string, rest: string)
    requires Avoids(idx, '\n') && Avoids(times, '\n') && |times| > 0 && !IsSpace(times[0])
    requires SingleLine(line)
    ensures var body := idx + "\n" + (times + "\n" + line);
      Quiet(body + "\n\n" + rest, 0, |body|)
  {
    var body := idx + "\n" + (times + "\n" + line);
    var s := body + "\n\n" + rest;
    var a := |idx|;
    var b := a + 1 + |times|;
    forall p | 0 <= p < |body|
      ensures MatchAt(s, p).None?
    {
      if p == a {
        assert s[p + 1] == times[0];
        NoMatchBeforeSolid(s, p, p + 1);
      } else if p == b {
        forall k | p < k < |body| - 1
          ensures s[k] != '\n'
        {
          assert s[k] == line[k - b - 1];
        }
        assert s[|body| - 1] == line[|line| - 1];
        NoMatchBeforeSolid(s, p, |body| - 1);
      } else if p < a {
        assert s[p] == idx[p];
      } else if p < b {
        assert s[p] == times[p - a - 1];
      } else {
        assert s[p] == line[p - b - 1];
      }
    }
  }

  /** A block body ended by a blank line is split off whole when the rest starts with a non-space character. */
  lemma SplitBlocksBody(body: string, rest: string)
    requires Quiet(body + "\n\n" + rest, 0, |body|)
    requires rest == "" || !IsSpace(rest[0])
    ensures SplitBlocks(body + "\n\n" + rest) == [body] + SplitBlocks(rest)
  {
    var s := body + "\n\n" + rest;
    assert s[|body|] == '\n' && s[|body| + 1] == '\n';
    assert |body| + 2 < |s| ==> s[|body| + 2] == rest[0];
    BlankLineMatch(s, |body|);
    FirstMatchSkip(s, 0, |body|);
    assert s[..|body|] == body;
    assert s[|body| + 2..] == rest;
  }

  // ---------------------------------------------------------------- reading

  /** What the loop of `parse_srt` makes of one block. */
  datatype BlockOutcome =
    | Skipped          // fewer than three lines
    | Parsed(cue: Cue)
    | Malformed        // `ValueError` from the unpacking or from `parse_timestamp`

  /**
   * One block: stripped and split into lines; under three lines it is
   * skipped; otherwise line 2 must split on ` --> ` into exactly two
   * timestamps, and lines 3 onwards joined by single spaces are the text.
   */
  function ParseBlock(block: string): BlockOutcome {
    var lines := SplitOn(Strip(block), "\n");
    if |lines| < 3 then Skipped
    else
      var text := Join(" ", lines[2..]);
      var ends := SplitOn(lines[1], " --> ");
      if |ends| != 2 then Malformed
      else match (ParseTimestamp(ends[0]), ParseTimestamp(ends[1]))
        case (Some(a), Some(b)) => Parsed(Cue(a, b, text))
        case _ => Malformed
  }

  /**
   * The loop over the blocks. Its `try` encloses the whole loop, so the
   * first malformed block ends parsing and the cues read so far are returned.
   */
  function ParseBlocks(blocks: seq<string>): (cues: seq<Cue>)
    ensures |cues| <= |blocks|
    decreases |blocks|
  {
    if |blocks| == 0 then []
    else match ParseBlock(blocks[0])
      case Skipped => ParseBlocks(blocks[1..])
      case Malformed => []
      case Parsed(c) => [c] + ParseBlocks(blocks[1..])
  }

  /**
   * What `open(path, "r").read()` returns for the characters stored in the
   * file: text mode with universal newlines turns `\r\n` and a lone `\r`
   * into `\n`.
   */
  function ReadText(raw: string): (r: string)
    ensures Avoids(r, '\r')
    decreases |raw|
  {
    if |raw| == 0 then ""
    else if raw[0] == '\r' then "\n" + ReadText(if |raw| > 1 && raw[1] == '\n' then raw[2..] else raw[1..])
    else [raw[0]] + ReadText(raw[1..])
  }

  /** A stretch without carriage returns is read as it is stored. */
  lemma {:induction false} ReadTextPrefix(a: string, b: string)
    requires Avoids(a, '\r')
    ensures ReadText(a + b) == a + ReadText(b)
    decreases |a|
  {
    if |a| == 0 {
      assert a + b == b;
    } else {
      var s := a + b;
      assert s[0] == a[0] && a[0] != '\r';
      assert ReadText(s) == [a[0]] + ReadText(s[1..]);
      assert s[1..] == a[1..] + b;
      assert Avoids(a[1..], '\r') by {
        forall k | 0 <= k < |a[1..]|
          ensures a[1..][k] != '\r'
        {
          assert a[1..][k] == a[k + 1];
        }
      }
      ReadTextPrefix(a[1..], b);
      assert [a[0]] + (a[1..] + ReadText(b)) == a + ReadText(b);
    }
  }

  /** A text without carriage returns reads back unchanged. */
  lemma ReadTextPlain(raw: string)
    requires Avoids(raw, '\r')
    ensures ReadText(raw) == raw
  {
    ReadTextPrefix(raw, "");
    assert raw + "" == raw;
  }

  /** A lone carriage return is read as a newline. */
  lemma ReadTextReturn(a: string, b: string)
    requires Avoids(a, '\r') && (|b| == 0 || b[0] != '\n')
    ensures ReadText(a + "\r" + b) == a + "\n" + ReadText(b)
  {
    ReadTextPrefix(a, "\r" + b);
    assert a + "\r" + b == a + ("\r" + b);
    LeadingReturn(b);
    assert a + ("\n" + ReadText(b)) == a + "\n" + ReadText(b);
  }

  lemma LeadingReturn(b: string)
    requires |b| == 0 || b[0] != '\n'
    ensures ReadText("\r" + b) == "\n" + ReadText(b)
  {
    var tail := "\r" + b;
    assert tail[0] == '\r' && tail[1..] == b;
  }

  /** A carriage return before a newline is read as one newline. */
  lemma ReadTextCrLf(a: string, b: string)
    requires Avoids(a, '\r')
    ensures ReadText(a + "\r\n" + b) == a + "\n" + ReadText(b)
  {
    ReadTextPrefix(a, "\r\n" + b);
    assert a + "\r\n" + b == a + ("\r\n" + b);
    LeadingCrLf(b);
    assert a + ("\n" + ReadText(b)) == a + "\n" + ReadText(b);
  }

  lemma LeadingCrLf(b: string)
    ensures ReadText("\r\n" + b) == "\n" + ReadText(b)
  {
    var tail := "\r\n" + b;
    assert tail[0] == '\r' && tail[1] == '\n' && tail[2..] == b;
  }

  /** `parse_srt`: the stored characters of the file, or `None` when it cannot be opened, which gives no cues. */
  function ParseSrt(content: Option<string>): seq<Cue> {
    match content
    case None => []
    case Some(raw) => ParseBlocks(SplitBlocks(ReadText(raw)))
  }

  /** Blocks in front of the first malformed one are parsed as if the later ones were absent. */
  lemma {:induction false} ParseBlocksStops(good: seq<string>, bad: string, rest: seq<string>)
    requires forall k :: 0 <= k < |good| ==> !ParseBlock(good[k]).Malformed?
    requires ParseBlock(bad).Malformed?
    ensures ParseBlocks(good + [bad] + rest) == ParseBlocks(good)
    decreases |good|
  {
    if |good| == 0 {
      assert (good + [bad] + rest)[0] == bad;
    } else {
      assert (good + [bad] + rest)[1..] == good[1..] + [bad] + rest;
      ParseBlocksStops(good[1..], bad, rest);
    }
  }

  /** Every cue comes from a block that parsed, in block order, and skipped blocks add nothing. */
  lemma {:induction false} ParseBlocksAppend(a: seq<string>, b: seq<string>)
    requires forall k :: 0 <= k < |a| ==> !ParseBlock(a[k]).Malformed?
    ensures ParseBlocks(a + b) == ParseBlocks(a) + ParseBlocks(b)
    decreases |a|
  {
    if |a| == 0 {
      assert a + b == b;
    } else {
      assert (a + b)[0] == a[0];
      assert (a + b)[1..] == a[1..] + b;
      ParseBlocksAppend(a[1..], b);
    }
  }

  /** An entry whose block reads back: clocks without negative fields and a single text line. */
  predicate Readable(e: Entry) {
    Natural(e.start) && Natural(e.end) && SingleLine(e.line)
  }

  /** The cue an entry stands for. */
  function CueOf(e: Entry): Cue {
    Cue(TotalSeconds(e.start), TotalSeconds(e.end), e.line)
  }

  /** A stamp holds no space, newline or carriage return. */
  lemma StampAvoids(t: string)
    requires StampText(t)
    ensures Avoids(t, ' ') && Avoids(t, '\n') && Avoids(t, '\r')
  {
    assert forall k :: 0 <= k < |t| ==> StampChar(t[k]);
  }

  /** `START --> END` holds no newline and starts with a digit. */
  lemma TimesAvoids(t1: string, t2: string)
    requires StampText(t1) && StampText(t2)
    ensures Avoids(t1 + " --> " + t2, '\n') && !IsSpace((t1 + " --> " + t2)[0])
  {
    var times := t1 + " --> " + t2;
    StampAvoids(t1);
    StampAvoids(t2);
    forall k | 0 <= k < |times|
      ensures times[k] != '\n'
    {
      if k < |t1| {
        assert times[k] == t1[k];
      } else if k >= |t1| + 5 {
        assert times[k] == t2[k - |t1| - 5];
      }
    }
    assert times[0] == t1[0];
  }

  /** A block body is already stripped and has exactly three lines. */
  lemma BodyLines(idx: string, t1: string, t2: string, line: string)
    requires |idx| > 0 && AllDigits(idx) && StampText(t1) && StampText(t2) && SingleLine(line)
    ensures Strip(BodyText(idx, t1, t2, line)) == BodyText(idx, t1, t2, line)
    ensures SplitOn(BodyText(idx, t1, t2, line), "\n") == [idx, t1 + " --> " + t2, line]
  {
    var times := t1 + " --> " + t2;
    var body := BodyText(idx, t1, t2, line);
    assert Trimmed(body) by {
      assert body[0] == idx[0];
      assert body[|body| - 1] == line[|line| - 1];
    }
    assert SplitOn(body, "\n") == [idx] + SplitOn(times + "\n" + line, "\n") by {
      assert Avoids(idx, '\n');
      SplitOnFirst(idx, "\n", times + "\n" + line);
    }
    assert SplitOn(times + "\n" + line, "\n") == [times] + SplitOn(line, "\n") by {
      TimesAvoids(t1, t2);
      SplitOnFirst(times, "\n", line);
    }
    assert SplitOn(line, "\n") == [line] by {
      SplitOnAbsent(line, "\n");
    }
  }

  /** `START --> END` splits back into its two stamps. */
  lemma TimesSplit(t1: string, t2: string)
    requires StampText(t1) && StampText(t2)
    ensures SplitOn(t1 + " --> " + t2, " --> ") == [t1, t2]
  {
    StampAvoids(t1);
    StampAvoids(t2);
    SplitOnFirst(t1, " --> ", t2);
    SplitOnAbsent(t2, " --> ");
  }

  /** A block without a line break is skipped: it has fewer than three lines. */
  lemma OneLineSkipped(block: string)
    requires Avoids(block, '\n')
    ensures ParseBlock(block) == Skipped
  {
    StripAvoids(block, '\n');
    SplitOnAbsent(Strip(block), "\n");
  }

  /**
   * A block of two lines is skipped too. This is what a segment with empty
   * text leaves once its trailing line break is split away: its cue does not
   * come back.
   */
  lemma TwoLinesSkipped(a: string, b: string)
    requires Avoids(a, '\n') && Avoids(b, '\n') && Trimmed(a + "\n" + b)
    ensures ParseBlock(a + "\n" + b) == Skipped
  {
    SplitOnFirst(a, "\n", b);
    SplitOnAbsent(b, "\n");
  }

  /** `idx \n times` followed by three line breaks splits into that two-line piece and an empty one. */
  lemma SplitTwoLineBlock(idx: string, times: string)
    requires Avoids(idx, '\n') && Avoids(times, '\n') && |times| > 0 && !IsSpace(times[0])
    ensures SplitBlocks(idx + "\n" + times + "\n\n\n") == [idx + "\n" + times, ""]
  {
    var s := idx + "\n" + times + "\n\n\n";
    var b := |idx| + 1 + |times|;
    TwoLineQuiet(s, idx, times);
    FirstMatchSkip(s, 0, b);
    TrailingBreaksMatch(s, b);
    assert s[..b] == idx + "\n" + times;
    assert s[b + 3..] == "";
    assert SplitBlocks("") == [""];
  }

  lemma TwoLineQuiet(s: string, idx: string, times: string)
    requires Avoids(idx, '\n') && Avoids(times, '\n') && |times| > 0 && !IsSpace(times[0])
    requires s == idx + "\n" + times + "\n\n\n"
    ensures Quiet(s, 0, |idx| + 1 + |times|)
  {
    forall p | 0 <= p < |idx| + 1 + |times|
      ensures MatchAt(s, p).None?
    {
      if p < |idx| {
        assert s[p] == idx[p];
      } else if p == |idx| {
        assert s[p + 1] == times[0];
        NoMatchBeforeSolid(s, p, p + 1);
      } else {
        assert s[p] == times[p - |idx| - 1];
      }
    }
  }

  /** Line breaks running to the end of the text make one match reaching the end. */
  lemma TrailingBreaksMatch(s: string, b: nat)
    requires b + 3 == |s| && s[b] == '\n' && s[b + 1] == '\n' && s[b + 2] == '\n'
    ensures MatchAt(s, b) == Some(b + 3)
  {
    assert RunEnd(s, b + 3) == |s|;
    assert RunEnd(s, b + 1) == |s|;
    assert LastNewline(s, b + 1, |s|) == Some(b + 2);
  }

  /**
   * A segment whose text line is empty (no text and no speaker prefix) is
   * written as a block, but reading the file back gives no cue for it.
   */
  lemma EmptyTextDropped(seg: Segment, names: map<int, string>)
    requires TextLine(seg, names) == "" && seg.start >= 0.0 && seg.end >= 0.0
    ensures ParseSrt(Some(GenerateSrt([seg], names))) == []
  {
    var e := EntryOf(1, seg, names);
    var t1, t2 := Render(e.start), Render(e.end);
    var times := t1 + " --> " + t2;
    assert Avoids(times, '\n') && |times| > 0 && !IsSpace(times[0]) && !IsSpace(times[|times| - 1]) by {
      RenderChars(e.start);
      RenderChars(e.end);
      TimeLineSolid(t1, t2);
    }
    var text := GenerateSrt([seg], names);
    assert ReadText(text) == "1" + "\n" + times + "\n\n\n" by {
      EmptyLineBlock(seg, names);
      SingleSegmentRead(seg, names);
    }
    OneTimeLineDropped(text, times);
  }

  /** A file that reads as an index line and a time line alone holds no cue. */
  lemma OneTimeLineDropped(text: string, times: string)
    requires ReadText(text) == "1" + "\n" + times + "\n\n\n"
    requires Avoids(times, '\n') && |times| > 0 && !IsSpace(times[0]) && !IsSpace(times[|times| - 1])
    ensures ParseSrt(Some(text)) == []
  {
    TwoLineBlockDropped("1", times);
  }

  /** One written segment without a carriage return in its text line is read as it was written. */
  lemma SingleSegmentRead(seg: Segment, names: map<int, string>)
    requires seg.start >= 0.0 && seg.end >= 0.0 && Avoids(TextLine(seg, names), '\r')
    ensures ReadText(GenerateSrt([seg], names)) == GenerateSrt([seg], names)
  {
    SingleSegmentText(seg, names);
    BlockAvoidsReturn(EntryOf(1, seg, names));
    ReadTextPlain(GenerateSrt([seg], names));
  }

  /** The block of a segment with an empty text line: `1`, its time line, then three line breaks. */
  lemma EmptyLineBlock(seg: Segment, names: map<int, string>)
    requires TextLine(seg, names) == ""
    ensures var e := EntryOf(1, seg, names);
      GenerateSrt([seg], names) == "1" + "\n" + (Render(e.start) + " --> " + Render(e.end)) + "\n\n\n"
  {
    var e := EntryOf(1, seg, names);
    var times := Render(e.start) + " --> " + Render(e.end);
    SingleSegmentText(seg, names);
    assert Decimal(1) == "1";
    assert BlockText(e) == "1" + "\n" + (times + "\n" + "") + "\n\n";
    EmptyLineRegroup("1", times);
  }

  lemma EmptyLineRegroup(a: string, b: string)
    ensures a + "\n" + (b + "\n" + "") + "\n\n" == a + "\n" + b + "\n\n\n"
  {
  }

  /** `START --> END` is one line with no white space at either end. */
  lemma TimeLineSolid(t1: string, t2: string)
    requires StampText(t1) && StampText(t2)
    ensures var times := t1 + " --> " + t2;
      Avoids(times, '\n') && |times| > 0 && !IsSpace(times[0]) && !IsSpace(times[|times| - 1])
  {
    var times := t1 + " --> " + t2;
    TimesAvoids(t1, t2);
    StampEnd(t2);
    assert times[|times| - 1] == t2[|t2| - 1];
  }

  /** A stamp does not end in white space. */
  lemma StampEnd(t: string)
    requires StampText(t)
    ensures !IsSpace(t[|t| - 1])
  {
    assert StampChar(t[|t| - 1]);
  }

  /** A block whose text line is empty is read as an index and a time line only, and dropped. */
  lemma TwoLineBlockDropped(idx: string, times: string)
    requires Avoids(idx, '\n') && Avoids(times, '\n') && |idx| > 0 && !IsSpace(idx[0])
    requires |times| > 0 && !IsSpace(times[0]) && !IsSpace(times[|times| - 1])
    ensures ParseBlocks(SplitBlocks(idx + "\n" + times + "\n\n\n")) == []
  {
    var a := idx + "\n" + times;
    SplitTwoLineBlock(idx, times);
    assert a[0] == idx[0] && a[|a| - 1] == times[|times| - 1];
    TwoLinesSkipped(idx, times);
    assert [a, ""][1..] == [""];
    ParseEmpty();
  }

  /** One segment is written as exactly its block. */
  lemma SingleSegmentText(seg: Segment, names: map<int, string>)
    ensures GenerateSrt([seg], names) == BlockText(EntryOf(1, seg, names))
  {
    var e := EntryOf(1, seg, names);
    assert Entries([seg], names) == [e];
    assert [e][1..] == [] && Concat([]) == "";
    assert Concat([e]) == BlockText(e) + "";
  }

  /** Text spread over two lines reads back as one text, the lines joined by a space. */
  lemma ParseTwoTextLines(idx: string, c1: Clock, c2: Clock, l1: string, l2: string)
    requires |idx| > 0 && AllDigits(idx) && Natural(c1) && Natural(c2)
    requires Avoids(l1, '\n') && SingleLine(l2)
    ensures ParseBlock(BodyText(idx, Render(c1), Render(c2), l1 + "\n" + l2))
      == Parsed(Cue(TotalSeconds(c1), TotalSeconds(c2), l1 + " " + l2))
  {
    var t1, t2 := Render(c1), Render(c2);
    RenderChars(c1);
    RenderChars(c2);
    ParseRender(c1);
    ParseRender(c2);
    TimesSplit(t1, t2);
    FourLines(idx, t1, t2, l1, l2);
    ParseFourLines(BodyText(idx, t1, t2, l1 + "\n" + l2), idx, t1 + " --> " + t2, l1, l2, t1, t2,
      TotalSeconds(c1), TotalSeconds(c2));
  }

  lemma FourLines(idx: string, t1: string, t2: string, l1: string, l2: string)
    requires |idx| > 0 && AllDigits(idx) && StampText(t1) && StampText(t2)
    requires Avoids(l1, '\n') && SingleLine(l2)
    ensures Strip(BodyText(idx, t1, t2, l1 + "\n" + l2)) == BodyText(idx, t1, t2, l1 + "\n" + l2)
    ensures SplitOn(BodyText(idx, t1, t2, l1 + "\n" + l2), "\n") == [idx, t1 + " --> " + t2, l1, l2]
  {
    var times := t1 + " --> " + t2;
    var text := l1 + "\n" + l2;
    var body := BodyText(idx, t1, t2, text);
    assert Trimmed(body) by {
      assert body[0] == idx[0];
      assert body[|body| - 1] == l2[|l2| - 1];
    }
    assert SplitOn(body, "\n") == [idx] + SplitOn(times + "\n" + text, "\n") by {
      assert Avoids(idx, '\n');
      SplitOnFirst(idx, "\n", times + "\n" + text);
    }
    assert SplitOn(times + "\n" + text, "\n") == [times] + SplitOn(text, "\n") by {
      TimesAvoids(t1, t2);
      SplitOnFirst(times, "\n", text);
    }
    assert SplitOn(text, "\n") == [l1, l2] by {
      SplitOnFirst(l1, "\n", l2);
      SplitOnAbsent(l2, "\n");
    }
  }

  lemma ParseFourLines(block: string, idx: string, times: string, l1: string, l2: string, t1: string, t2: string, a: real, b: real)
    requires Strip(block) == block && SplitOn(block, "\n") == [idx, times, l1, l2]
    requires SplitOn(times, " --> ") == [t1, t2]
    requires ParseTimestamp(t1) == Some(a) && ParseTimestamp(t2) == Some(b)
    ensures ParseBlock(block) == Parsed(Cue(a, b, l1 + " " + l2))
  {
    var lines := [idx, times, l1, l2];
    assert lines[2..] == [l1, l2];
    JoinTwo(" ", l1, l2);
    ParseLines(block, lines, t1, t2, a, b, l1 + " " + l2);
  }

  /** A block of three or more lines whose second line holds two parsable stamps gives one cue. */
  lemma ParseLines(block: string, lines: seq<string>, t1: string, t2: string, a: real, b: real, text: string)
    requires SplitOn(Strip(block), "\n") == lines && |lines| >= 3
    requires SplitOn(lines[1], " --> ") == [t1, t2]
    requires ParseTimestamp(t1) == Some(a) && ParseTimestamp(t2) == Some(b)
    requires Join(" ", lines[2..]) == text
    ensures ParseBlock(block) == Parsed(Cue(a, b, text))
  {
  }

  /** A stripped three-line block whose second line holds two parsable stamps gives one cue. */
  lemma ParseThreeLines(block: string, idx: string, times: string, line: string, t1: string, t2: string, a: real, b: real)
    requires Strip(block) == block && SplitOn(block, "\n") == [idx, times, line]
    requires SplitOn(times, " --> ") == [t1, t2]
    requires ParseTimestamp(t1) == Some(a) && ParseTimestamp(t2) == Some(b)
    ensures ParseBlock(block) == Parsed(Cue(a, b, line))
  {
    var lines := [idx, times, line];
    assert lines[2..] == [line];
    ParseLines(block, lines, t1, t2, a, b, line);
  }

  /** The body of a readable entry parses as its cue. */
  lemma ParseEntryBody(e: Entry)
    requires Readable(e)
    ensures ParseBlock(EntryBody(e)) == Parsed(CueOf(e))
  {
    var idx, t1, t2 := Decimal(e.number), Render(e.start), Render(e.end);
    RenderChars(e.start);
    RenderChars(e.end);
    ParseRender(e.start);
    ParseRender(e.end);
    BodyLines(idx, t1, t2, e.line);
    TimesSplit(t1, t2);
    ParseThreeLines(BodyText(idx, t1, t2, e.line), idx, t1 + " --> " + t2, e.line, t1, t2,
      TotalSeconds(e.start), TotalSeconds(e.end));
  }

  /** A body and its blank line split off whole when what follows starts with a non-space character. */
  lemma SplitBody(idx: string, t1: string, t2: string, line: string, rest: string)
    requires AllDigits(idx) && StampText(t1) && StampText(t2) && SingleLine(line)
    requires rest == "" || !IsSpace(rest[0])
    ensures SplitBlocks(BodyText(idx, t1, t2, line) + "\n\n" + rest) == [BodyText(idx, t1, t2, line)] + SplitBlocks(rest)
  {
    assert Avoids(idx, '\n');
    TimesAvoids(t1, t2);
    QuietBody(idx, t1 + " --> " + t2, line, rest);
    SplitBlocksBody(BodyText(idx, t1, t2, line), rest);
  }

  /** Written text splits at the blank line that ends a readable block. */
  lemma SplitEntry(e: Entry, rest: string)
    requires Readable(e)
    requires rest == "" || !IsSpace(rest[0])
    ensures SplitBlocks(BlockText(e) + rest) == [EntryBody(e)] + SplitBlocks(rest)
  {
    RenderChars(e.start);
    RenderChars(e.end);
    SplitBody(Decimal(e.number), Render(e.start), Render(e.end), e.line, rest);
  }

  /** Every entry is readable. */
  predicate AllReadable(entries: seq<Entry>)
    decreases |entries|
  {
    |entries| == 0 || (Readable(entries[0]) && AllReadable(entries[1..]))
  }

  /** The cues of the entries, in order. */
  function Cues(entries: seq<Entry>): seq<Cue>
    decreases |entries|
  {
    if |entries| == 0 then [] else [CueOf(entries[0])] + Cues(entries[1..])
  }

  lemma {:induction false} AllReadableIntro(entries: seq<Entry>)
    requires forall k :: 0 <= k < |entries| ==> Readable(entries[k])
    ensures AllReadable(entries)
    decreases |entries|
  {
    if |entries| > 0 {
      assert forall k :: 0 <= k < |entries[1..]| ==> entries[1..][k] == entries[k + 1];
      AllReadableIntro(entries[1..]);
    }
  }

  lemma {:induction false} CuesIndex(entries: seq<Entry>)
    ensures |Cues(entries)| == |entries|
    ensures forall k :: 0 <= k < |entries| ==> Cues(entries)[k] == CueOf(entries[k])
    decreases |entries|
  {
    if |entries| > 0 {
      CuesIndex(entries[1..]);
    }
  }

  /** Reading back the blocks of readable entries gives their cues, in order. */
  lemma {:induction false} ParseConcat(entries: seq<Entry>)
    requires AllReadable(entries)
    ensures ParseBlocks(SplitBlocks(Concat(entries))) == Cues(entries)
    decreases |entries|
  {
    if |entries| == 0 {
      ParseEmpty();
    } else {
      ConcatHead(entries[1..]);
      ParseOneBlock(entries[0], Concat(entries[1..]));
      ParseConcat(entries[1..]);
    }
  }

  /** Empty text reads as no cues. */
  lemma ParseEmpty()
    ensures ParseBlocks(SplitBlocks("")) == []
  {
    assert SplitBlocks("") == [""];
    assert Strip("") == "";
    assert SplitOn("", "\n") == [""];
    assert ParseBlock("").Skipped?;
  }

  /** A readable block in front of text that starts a new block reads as its cue, then the rest. */
  lemma ParseOneBlock(e: Entry, rest: string)
    requires Readable(e)
    requires rest == "" || !IsSpace(rest[0])
    ensures ParseBlocks(SplitBlocks(BlockText(e) + rest)) == [CueOf(e)] + ParseBlocks(SplitBlocks(rest))
  {
    SplitEntry(e, rest);
    ParseEntryBody(e);
    var blocks := SplitBlocks(rest);
    assert ([EntryBody(e)] + blocks)[1..] == blocks;
  }

  // ---------------------------------------------------------------- round trip

  /** What reading back a written segment gives: times cut to whole milliseconds, prefix and text as one line. */
  function Reread(seg: Segment, names: map<int, string>): Cue {
    Cue(ToMillis(seg.start), ToMillis(seg.end), TextLine(seg, names))
  }

  /**
   * A segment whose block reads back: times not negative, and a text line
   * that survives the text-mode read, `strip` and the blank-line split.
   */
  predicate Rereadable(seg: Segment, names: map<int, string>) {
    seg.start >= 0.0 && seg.end >= 0.0 && SingleLine(TextLine(seg, names)) && Avoids(TextLine(seg, names), '\r')
  }

  /** A written block holds no carriage return when its text line holds none. */
  lemma BlockAvoidsReturn(e: Entry)
    requires Natural(e.start) && Natural(e.end) && Avoids(e.line, '\r')
    ensures Avoids(BlockText(e), '\r')
  {
    var t1, t2 := Render(e.start), Render(e.end);
    var idx := Decimal(e.number);
    RenderChars(e.start);
    RenderChars(e.end);
    StampAvoids(t1);
    StampAvoids(t2);
    assert Avoids(idx, '\r');
    AvoidsJoin(idx, "\n", '\r');
    AvoidsJoin(t1, " --> ", '\r');
    AvoidsJoin(t1 + " --> ", t2, '\r');
    AvoidsJoin(t1 + " --> " + t2, "\n", '\r');
    AvoidsJoin(t1 + " --> " + t2 + "\n", e.line, '\r');
    AvoidsJoin(idx + "\n", t1 + " --> " + t2 + "\n" + e.line, '\r');
    AvoidsJoin(idx + "\n" + (t1 + " --> " + t2 + "\n" + e.line), "\n\n", '\r');
  }

  /** Written subtitles hold no carriage return when no text line does. */
  lemma {:induction false} ConcatAvoidsReturn(entries: seq<Entry>)
    requires forall k :: 0 <= k < |entries| ==>
      Natural(entries[k].start) && Natural(entries[k].end) && Avoids(entries[k].line, '\r')
    ensures Avoids(Concat(entries), '\r')
    decreases |entries|
  {
    if |entries| > 0 {
      BlockAvoidsReturn(entries[0]);
      assert forall k :: 0 <= k < |entries[1..]| ==> entries[1..][k] == entries[k + 1];
      ConcatAvoidsReturn(entries[1..]);
      AvoidsJoin(BlockText(entries[0]), Concat(entries[1..]), '\r');
    }
  }

  /** The entry of a rereadable segment is readable, and stands for `Reread`. */
  lemma EntryReadable(i: nat, seg: Segment, names: map<int, string>)
    requires Rereadable(seg, names)
    ensures Readable(EntryOf(i, seg, names)) && CueOf(EntryOf(i, seg, names)) == Reread(seg, names)
  {
    SplitSecondsValue(seg.start);
    SplitSecondsValue(seg.end);
  }

  /**
   * Reading back written subtitles gives one cue per segment, in order,
   * with the times cut to whole milliseconds and the speaker prefix part of
   * the text, provided each text line is a single line not ending in white
   * space (otherwise `strip` or the blank-line split would change it).
   */
  lemma ParseGenerate(segs: seq<Segment>, names: map<int, string>)
    requires forall k :: 0 <= k < |segs| ==> Rereadable(segs[k], names)
    ensures var cues := ParseSrt(Some(GenerateSrt(segs, names)));
      |cues| == |segs| && forall k :: 0 <= k < |segs| ==> cues[k] == Reread(segs[k], names)
  {
    var entries := Entries(segs, names);
    forall k | 0 <= k < |segs|
      ensures Readable(entries[k]) && CueOf(entries[k]) == Reread(segs[k], names)
    {
      EntryReadable(k + 1, segs[k], names);
    }
    ConcatAvoidsReturn(entries);
    ReadTextPlain(GenerateSrt(segs, names));
    AllReadableIntro(entries);
    ParseConcat(entries);
    CuesIndex(entries);
  }
}

=== FILE: Timestamp.dfy ===
/**
 * SubRip timestamps (`HH:MM:SS,mmm`) as written and read by the subtitle module.
 * Times are real numbers of seconds, as the source's floats are; the float
 * formula is followed step by step (floor division, Python `%`, `int()`),
 * which for non-negative times truncates to whole milliseconds.
 */
module Timestamp {
  import opened Wrappers
  import opened Strings

  /** The four printed fields of a timestamp. */
  datatype Clock = Clock(hours: int, minutes: int, seconds: int, millis: int)

  /** Minutes and seconds below 60, milliseconds below 1000, nothing negative. */
  predicate WellFormed(c: Clock) {
    0 <= c.hours && 0 <= c.minutes < 60 && 0 <= c.seconds < 60 && 0 <= c.millis < 1000
  }

  /** The instant a clock denotes, in whole milliseconds. */
  function TotalMillis(c: Clock): int {
    3600000 * c.hours + 60000 * c.minutes + 1000 * c.seconds + c.millis
  }

  /** The instant a clock denotes, in seconds. */
  function TotalSeconds(c: Clock): real {
    (3600 * c.hours + 60 * c.minutes + c.seconds) as real + c.millis as real / 1000.0
  }

  /** `t` truncated to whole milliseconds. */
  function ToMillis(t: real): real {
    MillisOf(t) as real / 1000.0
  }

  /** Whole milliseconds contained in `t` seconds. */
  function MillisOf(t: real): int {
    (t * 1000.0).Floor
  }

  /** The clock of a number of milliseconds; it is the only well-formed clock with that total. */
  function ClockOfMillis(t: nat): (c: Clock)
    ensures WellFormed(c) && TotalMillis(c) == t
  {
    var r := t % 3600000;
    var c := Clock(t / 3600000, r / 60000, r % 60000 / 1000, r % 60000 % 1000);
    assert t == 3600000 * (t / 3600000) + r;
    assert r == 60000 * (r / 60000) + r % 60000;
    assert r % 60000 == 1000 * (r % 60000 / 1000) + r % 60000 % 1000;
    c
  }

  lemma ClockUnique(c: Clock, d: Clock)
    requires WellFormed(c) && WellFormed(d) && TotalMillis(c) == TotalMillis(d)
    ensures c == d
  {
    var low := 60000 * c.minutes + 1000 * c.seconds + c.millis;
    var low' := 60000 * d.minutes + 1000 * d.seconds + d.millis;
    assert c.hours == d.hours by {
      assert 0 <= low < 3600000 && 0 <= low' < 3600000;
    }
    assert c.minutes == d.minutes by {
      assert 0 <= 1000 * c.seconds + c.millis < 60000;
      assert 0 <= 1000 * d.seconds + d.millis < 60000;
    }
  }

  // ---------------------------------------------------------------- the float formula

  /** Python `x // y` on floats, as an integer. */
  function FloorDiv(x: real, y: real): int
    requires y > 0.0
  {
    (x / y).Floor
  }

  /** Python `x % y` on floats for a positive divisor: the result has the divisor's sign. */
  function FloatMod(x: real, y: real): real
    requires y > 0.0
  {
    x - y * FloorDiv(x, y) as real
  }

  /** `int(x)` truncates toward zero. */
  function Trunc(x: real): int {
    if x >= 0.0 then x.Floor else -((-x).Floor)
  }

  /**
   * The four fields `format_timestamp` computes:
   * `h = int(t // 3600)`, `m = int((t % 3600) // 60)`, `s = int(t % 60)`,
   * `ms = int((t - int(t)) * 1000)`. For a non-negative time they are the
   * hour/minute/second/millisecond split of the whole milliseconds in `t`.
   */
  function SplitSeconds(t: real): (c: Clock)
    ensures t >= 0.0 ==> WellFormed(c) && TotalMillis(c) == MillisOf(t)
  {
    var c := Clock(
      Trunc(FloorDiv(t, 3600.0) as real),
      Trunc(FloorDiv(FloatMod(t, 3600.0), 60.0) as real),
      Trunc(FloatMod(t, 60.0)),
      Trunc((t - Trunc(t) as real) * 1000.0));
    if t >= 0.0 then
      SplitSecondsFields(t);
      HmsIdentity(t.Floor);
      c
    else c
  }

  /** Python's float `%` by a positive divisor lands in `[0, y)`. */
  lemma FloatModRange(x: real, y: real)
    requires y > 0.0
    ensures 0.0 <= FloatMod(x, y) < y
  {
    var q := FloorDiv(x, y);
    var z := x / y;
    assert z * y == x;
    assert q as real <= z < q as real + 1.0;
    MulMono(q as real, z, y);
    assert q as real * y <= z * y;
    MulStrict(z, q as real + 1.0, y);
    var p := q as real * y;
    assert (q as real + 1.0) * y == p + y;
    assert z * y < p + y;
    assert FloatMod(x, y) == x - p;
  }

  /**
   * Whatever the time, even a negative one, the minutes and seconds fields
   * lie in `[0, 60)` and the milliseconds field strictly between -1000 and 1000;
   * for a non-negative time the milliseconds are not negative either.
   */
  lemma SplitSecondsBounds(t: real)
    ensures var c := SplitSeconds(t);
      && 0 <= c.minutes < 60 && 0 <= c.seconds < 60
      && -1000 < c.millis < 1000 && (t >= 0.0 ==> c.millis >= 0)
  {
    var r := FloatMod(t, 3600.0);
    FloatModRange(t, 3600.0);
    FloatModRange(t, 60.0);
    var q := FloorDiv(r, 60.0);
    assert 0 <= q < 60 by {
      assert 0.0 <= r / 60.0 < 60.0;
    }
    assert Trunc(q as real) == q;
    var f := t - Trunc(t) as real;
    assert -1.0 < f < 1.0 && (t >= 0.0 ==> f >= 0.0);
  }

  lemma HmsIdentity(n: int)
    requires n >= 0
    ensures 3600 * (n / 3600) + 60 * ((n % 3600) / 60) + n % 60 == n
    ensures 0 <= (n % 3600) / 60 < 60
  {
    var h, r := n / 3600, n % 3600;
    var m, s := r / 60, r % 60;
    assert n == 3600 * h + r;
    assert r == 60 * m + s;
    Mod60(n, 60 * h + m, s);
  }

  /** A remainder below 60 is the remainder modulo 60. */
  lemma Mod60(n: int, q: int, s: int)
    requires 0 <= s < 60 && n == 60 * q + s
    ensures n % 60 == s
  {
  }

  lemma FloorOfQuotient(x: real, k: int)
    requires x >= 0.0 && k > 0
    ensures (x / k as real).Floor == x.Floor / k
  {
    var n := x.Floor;
    var q := n / k;
    var y := x / k as real;
    assert y * k as real == x;
    assert q * k <= n < q * k + k;
    assert (q * k) as real <= x < (q * k + k) as real;
    assert q as real * k as real <= y * k as real;
    assert y * k as real < (q + 1) as real * k as real;
    assert q as real <= y by {
      if y < q as real {
        MulStrict(y, q as real, k as real);
      }
    }
    assert y < (q + 1) as real by {
      if (q + 1) as real <= y {
        MulMono((q + 1) as real, y, k as real);
      }
    }
  }

  lemma MulStrict(a: real, b: real, k: real)
    requires a < b && k > 0.0
    ensures a * k < b * k
  {
  }

  lemma MulMono(a: real, b: real, k: real)
    requires a <= b && k > 0.0
    ensures a * k <= b * k
  {
  }

  lemma FloorShift(x: real, k: int)
    ensures (x - k as real).Floor == x.Floor - k
  {
  }

  lemma SplitSecondsFields(t: real)
    requires t >= 0.0
    ensures var n := t.Floor;
      && Trunc(FloorDiv(t, 3600.0) as real) == n / 3600
      && Trunc(FloorDiv(FloatMod(t, 3600.0), 60.0) as real) == (n % 3600) / 60
      && Trunc(FloatMod(t, 60.0)) == n % 60
      && Trunc((t - Trunc(t) as real) * 1000.0) == MillisOf(t) - 1000 * n
      && 1000 * n <= MillisOf(t) < 1000 * n + 1000
  {
    var n := t.Floor;
    FloorOfQuotient(t, 3600);
    FloorOfQuotient(t, 60);
    var r := FloatMod(t, 3600.0);
    assert r == t - (3600 * (n / 3600)) as real;
    FloorShift(t, 3600 * (n / 3600));
    assert r.Floor == n % 3600;
    assert r >= 0.0;
    FloorOfQuotient(r, 60);
    FloorShift(t, 60 * (n / 60));
    assert (t - n as real) * 1000.0 == t * 1000.0 - (1000 * n) as real;
    FloorShift(t * 1000.0, 1000 * n);
  }

  // ---------------------------------------------------------------- printing and parsing

  /** No field is negative, so every field prints as plain digits. */
  predicate Natural(c: Clock) {
    c.hours >= 0 && c.minutes >= 0 && c.seconds >= 0 && c.millis >= 0
  }

  /** `f"{h:02}:{m:02}:{s:02},{ms:03}"`. */
  function Render(c: Clock): string {
    PadInt(c.hours, 2) + ":" + PadInt(c.minutes, 2) + ":" + PadInt(c.seconds, 2) + "," + PadInt(c.millis, 3)
  }

  /** A clock with no negative field prints its fields as zero-padded digits. */
  lemma RenderNatural(c: Clock)
    requires Natural(c)
    ensures Render(c) == ZeroPad(c.hours, 2) + ":" + ZeroPad(c.minutes, 2) + ":" + ZeroPad(c.seconds, 2) + "," + ZeroPad(c.millis, 3)
  {
  }

  /** `HH:MM:SS,mmm`: two digits, colon, two digits, colon, two digits, comma, three digits. */
  predicate SrtShape(r: string) {
    && |r| == 12
    && r[2] == ':' && r[5] == ':' && r[8] == ','
    && forall k :: 0 <= k < 12 && k != 2 && k != 5 && k != 8 ==> IsDigit(r[k])
  }

  /**
   * `format_timestamp(seconds)`. From zero up to 100 hours the result is
   * always `DD:DD:DD,DDD`; beyond, the hour field simply grows, and a
   * negative time prints its negative fields with a minus sign.
   */
  function FormatTimestamp(seconds: real): (r: string)
    ensures 0.0 <= seconds < 360000.0 ==> SrtShape(r)
  {
    var c := SplitSeconds(seconds);
    if 0.0 <= seconds < 360000.0 then
      assert MillisOf(seconds) < 360000000;
      RenderShape(c);
      Render(c)
    else Render(c)
  }

  /** A time prints as the clock `SplitSeconds` gives it. */
  lemma FormatRender(seconds: real)
    ensures FormatTimestamp(seconds) == Render(SplitSeconds(seconds))
  {
  }

  /** The printed fields are those of the whole milliseconds in the time: fractions of a millisecond are dropped. */
  lemma FormatTimestampMillis(seconds: real)
    requires seconds >= 0.0
    ensures FormatTimestamp(seconds) == Render(ClockOfMillis(MillisOf(seconds)))
  {
    ClockUnique(SplitSeconds(seconds), ClockOfMillis(MillisOf(seconds)));
  }

  lemma RenderShape(c: Clock)
    requires WellFormed(c)
    ensures c.hours < 100 ==> SrtShape(Render(c))
  {
    if c.hours < 100 {
      RenderShapeTwoDigitHours(c);
    }
  }

  lemma RenderShapeTwoDigitHours(c: Clock)
    requires WellFormed(c) && c.hours < 100
    ensures SrtShape(Render(c))
  {
    RenderNatural(c);
    DecimalLength(c.hours, 2);
    DecimalLength(c.minutes, 2);
    DecimalLength(c.seconds, 2);
    DecimalLength(c.millis, 3);
    var r := Render(c);
    var h, m, s, ms := ZeroPad(c.hours, 2), ZeroPad(c.minutes, 2), ZeroPad(c.seconds, 2), ZeroPad(c.millis, 3);
    assert |h| == 2 && |m| == 2 && |s| == 2 && |ms| == 3;
    assert r == h + ":" + m + ":" + s + "," + ms;
    assert r[0] == h[0] && r[1] == h[1] && r[3] == m[0] && r[4] == m[1];
    assert r[6] == s[0] && r[7] == s[1] && r[9] == ms[0] && r[10] == ms[1] && r[11] == ms[2];
  }

  /** A character a printed timestamp may contain. */
  predicate StampChar(ch: char) {
    IsDigit(ch) || ch == ':' || ch == ','
  }

  /** Starts with a digit and holds only digits, colons and commas. */
  predicate StampText(r: string) {
    |r| > 0 && IsDigit(r[0]) && forall k :: 0 <= k < |r| ==> StampChar(r[k])
  }

  /** A printed timestamp starts with a digit and holds only digits, colons and commas, whatever its length. */
  lemma FormatChars(seconds: real)
    requires seconds >= 0.0
    ensures StampText(FormatTimestamp(seconds))
  {
    RenderChars(SplitSeconds(seconds));
  }

  lemma RenderChars(c: Clock)
    requires Natural(c)
    ensures StampText(Render(c))
  {
    RenderNatural(c);
    var h, m, s, ms := ZeroPad(c.hours, 2), ZeroPad(c.minutes, 2), ZeroPad(c.seconds, 2), ZeroPad(c.millis, 3);
    var r := Render(c);
    assert r == h + (":" + m + ":" + s + "," + ms);
    DigitsAndMarks(h, ":", m);
    DigitsAndMarks(h + ":" + m, ":", s);
    DigitsAndMarks(h + ":" + m + ":" + s, ",", ms);
  }

  lemma DigitsAndMarks(a: string, mark: string, b: string)
    requires forall k :: 0 <= k < |a| ==> StampChar(a[k])
    requires AllDigits(b) && (mark == ":" || mark == ",")
    ensures forall k :: 0 <= k < |a + mark + b| ==> StampChar((a + mark + b)[k])
  {
  }

  /**
   * `parse_timestamp(ts)`: exactly three `:`-separated fields, the last of
   * which holds exactly two `,`-separated fields, each accepted by `int()`;
   * `None` stands for the `ValueError` raised otherwise. Field ranges are not checked.
   */
  function ParseTimestamp(ts: string): Option<real> {
    var parts := SplitOn(ts, ":");
    if |parts| != 3 then None
    else
      var secMs := SplitOn(parts[2], ",");
      if |secMs| != 2 then None
      else
        match (ParseInt(parts[0]), ParseInt(parts[1]), ParseInt(secMs[0]), ParseInt(secMs[1]))
        case (Some(h), Some(m), Some(s), Some(ms)) => Some(TotalSeconds(Clock(h, m, s, ms)))
        case _ => None
  }

  /** Parsing a printed clock gives `h*3600 + m*60 + s + ms/1000`, whatever the field ranges. */
  lemma ParseRender(c: Clock)
    requires Natural(c)
    ensures ParseTimestamp(Render(c)) == Some(TotalSeconds(c))
  {
    var h, m, s, ms := ZeroPad(c.hours, 2), ZeroPad(c.minutes, 2), ZeroPad(c.seconds, 2), ZeroPad(c.millis, 3);
    RenderFields(c);
    ZeroPadValue(c.hours, 2);
    ZeroPadValue(c.minutes, 2);
    ZeroPadValue(c.seconds, 2);
    ZeroPadValue(c.millis, 3);
    assert ParseInt(h) == Some(c.hours);
    assert ParseInt(m) == Some(c.minutes);
    assert ParseInt(s) == Some(c.seconds);
    assert ParseInt(ms) == Some(c.millis);
  }

  /** The printed clock splits into its hour and minute fields and a `SS,mmm` tail, which splits in two. */
  lemma RenderFields(c: Clock)
    requires Natural(c)
    ensures SplitOn(Render(c), ":")
      == [ZeroPad(c.hours, 2), ZeroPad(c.minutes, 2), ZeroPad(c.seconds, 2) + "," + ZeroPad(c.millis, 3)]
    ensures SplitOn(ZeroPad(c.seconds, 2) + "," + ZeroPad(c.millis, 3), ",")
      == [ZeroPad(c.seconds, 2), ZeroPad(c.millis, 3)]
  {
    RenderNatural(c);
    var h, m, s, ms := ZeroPad(c.hours, 2), ZeroPad(c.minutes, 2), ZeroPad(c.seconds, 2), ZeroPad(c.millis, 3);
    var tail := s + "," + ms;
    var r := Render(c);
    assert r == h + ":" + (m + ":" + tail);
    RenderColons(h, m, tail);
    assert SplitOn(r, ":") == [h, m, tail];
    SplitOnFirst(s, ",", ms);
    SplitOnAbsent(ms, ",");
    assert SplitOn(tail, ",") == [s, ms];
  }

  lemma RenderColons(h: string, m: string, tail: string)
    requires AllDigits(h) && AllDigits(m)
    requires forall k :: 0 <= k < |tail| ==> tail[k] == ',' || IsDigit(tail[k])
    ensures SplitOn(h + ":" + (m + ":" + tail), ":") == [h, m, tail]
  {
    assert Avoids(tail, ':');
    SplitOnFirst(h, ":", m + ":" + tail);
    SplitOnFirst(m, ":", tail);
    SplitOnAbsent(tail, ":");
  }

  /** Parsing a printed well-formed clock yields any value equal to its seconds. */
  lemma ParseRenderValue(c: Clock, v: real)
    requires WellFormed(c) && TotalSeconds(c) == v
    ensures ParseTimestamp(Render(c)) == Some(v)
  {
    ParseRender(c);
  }

  /** A clock totalling `t` milliseconds denotes `t / 1000` seconds. */
  lemma ClockSeconds(c: Clock, t: int)
    requires TotalMillis(c) == t
    ensures TotalSeconds(c) == t as real / 1000.0
  {
    var whole := 3600 * c.hours + 60 * c.minutes + c.seconds;
    assert t == 1000 * whole + c.millis;
    assert t as real == 1000.0 * whole as real + c.millis as real;
  }

  /**
   * Round trip: parsing a formatted time gives back the time truncated to
   * whole milliseconds, so never more than a millisecond below it.
   */
  lemma ParseFormat(seconds: real)
    requires seconds >= 0.0
    ensures ParseTimestamp(FormatTimestamp(seconds)) == Some(ToMillis(seconds))
  {
    SplitSecondsValue(seconds);
    ParseFormatValue(seconds, ToMillis(seconds));
  }

  /** Parsing a formatted time yields the seconds of the clock that was printed. */
  lemma ParseFormatValue(seconds: real, v: real)
    requires seconds >= 0.0 && TotalSeconds(SplitSeconds(seconds)) == v
    ensures ParseTimestamp(FormatTimestamp(seconds)) == Some(v)
  {
    ParseRenderValue(SplitSeconds(seconds), v);
  }

  /** The clock `format_timestamp` prints denotes the time truncated to whole milliseconds. */
  lemma SplitSecondsValue(seconds: real)
    requires seconds >= 0.0
    ensures TotalSeconds(SplitSeconds(seconds)) == ToMillis(seconds)
  {
    ClockSeconds(SplitSeconds(seconds), MillisOf(seconds));
  }

  /** A time is a whole number of milliseconds. */
  predicate WholeMillis(seconds: real) {
    (seconds * 1000.0).Floor as real == seconds * 1000.0
  }

  /** Round trip without loss for a time that is a whole number of milliseconds. */
  lemma ParseFormatExact(seconds: real)
    requires seconds >= 0.0 && WholeMillis(seconds)
    ensures ParseTimestamp(FormatTimestamp(seconds)) == Some(seconds)
  {
    var c := SplitSeconds(seconds);
    assert TotalSeconds(c) == seconds by {
      ClockSeconds(c, MillisOf(seconds));
      WholeMillisBack(seconds);
    }
    ParseRenderValue(c, seconds);
  }

  lemma WholeMillisBack(seconds: real)
    requires WholeMillis(seconds)
    ensures MillisOf(seconds) as real / 1000.0 == seconds
  {
  }

  /** Truncation to milliseconds loses less than one millisecond. */
  lemma TruncationBound(seconds: real)
    requires seconds >= 0.0
    ensures MillisOf(seconds) as real / 1000.0 <= seconds < MillisOf(seconds) as real / 1000.0 + 0.001
  {
  }

  /** A time prints as the one well-formed clock holding its whole milliseconds. */
  lemma FormatClock(seconds: real, c: Clock)
    requires seconds >= 0.0 && WellFormed(c) && TotalMillis(c) == MillisOf(seconds)
    ensures FormatTimestamp(seconds) == Render(c)
  {
    ClockUnique(SplitSeconds(seconds), c);
  }

  /** Zero prints as all zeros. */
  lemma FormatZero()
    ensures FormatTimestamp(0.0) == "00:00:00,000"
  {
    FormatClock(0.0, Clock(0, 0, 0, 0));
    RenderZero();
  }

  lemma RenderZero()
    ensures Render(Clock(0, 0, 0, 0)) == "00:00:00,000"
  {
    RenderNatural(Clock(0, 0, 0, 0));
    assert ZeroPad(0, 2) == "00";
    assert ZeroPad(0, 3) == "000";
  }

  /** One hour, one minute and one and a quarter seconds. */
  lemma FormatHourMinuteSecond()
    ensures FormatTimestamp(3661.25) == "01:01:01,250"
  {
    FormatClock(3661.25, Clock(1, 1, 1, 250));
    RenderHourMinuteSecond();
  }

  lemma RenderHourMinuteSecond()
    ensures Render(Clock(1, 1, 1, 250)) == "01:01:01,250"
  {
    RenderNatural(Clock(1, 1, 1, 250));
    assert ZeroPad(1, 2) == "01";
    assert Decimal(25) == "25";
    assert ZeroPad(250, 3) == "250";
  }

  /** A negative time is not rejected: its hour and millisecond fields print with a minus sign. */
  lemma FormatNegative()
    ensures FormatTimestamp(-1.5) == "-1:59:58,-500"
  {
    SplitNegative();
    RenderNegative();
  }

  /**
   * A negative time does not read back as itself: the signed fields of
   * `-1:59:58,-500` are each accepted by `int()`, and add up to −2.5.
   */
  lemma NegativeRereadsShifted()
    ensures FormatTimestamp(-1.5) == "-1:59:58,-500"
    ensures ParseTimestamp(FormatTimestamp(-1.5)) == Some(-2.5)
  {
    FormatNegative();
    SplitNegative();
    FormatRender(-1.5);
    ParseRenderAny(Clock(-1, 59, 58, -500));
  }

  /** Every printed clock parses back to its total, negative fields included: `int()` accepts the minus sign. */
  lemma ParseRenderAny(c: Clock)
    ensures ParseTimestamp(Render(c)) == Some(TotalSeconds(c))
  {
    var h, m, s, ms := PadInt(c.hours, 2), PadInt(c.minutes, 2), PadInt(c.seconds, 2), PadInt(c.millis, 3);
    SignedFields(h, m, s, ms, c);
    ParsePadInt(c.hours, 2);
    ParsePadInt(c.minutes, 2);
    ParsePadInt(c.seconds, 2);
    ParsePadInt(c.millis, 3);
  }

  lemma SignedFields(h: string, m: string, s: string, ms: string, c: Clock)
    requires h == PadInt(c.hours, 2) && m == PadInt(c.minutes, 2)
    requires s == PadInt(c.seconds, 2) && ms == PadInt(c.millis, 3)
    ensures SplitOn(Render(c), ":") == [h, m, s + "," + ms]
    ensures SplitOn(s + "," + ms, ",") == [s, ms]
  {
    PadIntAvoids(c.hours, 2);
    PadIntAvoids(c.minutes, 2);
    PadIntAvoids(c.seconds, 2);
    PadIntAvoids(c.millis, 3);
    var tail := s + "," + ms;
    assert Render(c) == h + ":" + (m + ":" + tail);
    AvoidsJoin(s, ",", ':');
    AvoidsJoin(s + ",", ms, ':');
    ThreeFields(h, m, tail);
    SplitOnFirst(s, ",", ms);
    SplitOnAbsent(ms, ",");
  }

  /** `a:b:tail` splits on `:` into its three parts when none holds a colon. */
  lemma ThreeFields(a: string, b: string, tail: string)
    requires Avoids(a, ':') && Avoids(b, ':') && Avoids(tail, ':')
    ensures SplitOn(a + ":" + (b + ":" + tail), ":") == [a, b, tail]
  {
    SplitOnFirst(a, ":", b + ":" + tail);
    SplitOnFirst(b, ":", tail);
    SplitOnAbsent(tail, ":");
  }

  /** A padded integer holds digits and at most a minus sign, so neither field separator. */
  lemma PadIntAvoids(n: int, width: nat)
    ensures Avoids(PadInt(n, width), ':') && Avoids(PadInt(n, width), ',')
  {
    var p := PadInt(n, width);
    if n < 0 {
      var d := ZeroPad(-n, if width > 0 then width - 1 else 0);
      assert p == "-" + d;
      forall k | 1 <= k < |p|
        ensures IsDigit(p[k])
      {
        assert p[k] == d[k - 1];
      }
    }
  }

  /** `int(f"{n:0{width}}")` is `n`, for every integer. */
  lemma ParsePadInt(n: int, width: nat)
    ensures ParseInt(PadInt(n, width)) == Some(n)
  {
    if n >= 0 {
      ParseZeroPad(n, width);
    } else {
      var w := if width > 0 then width - 1 else 0;
      ParseNegativePad(-n, w);
      assert PadInt(n, width) == "-" + ZeroPad(-n, w);
    }
  }

  lemma ParseNegativePad(k: nat, w: nat)
    ensures ParseInt("-" + ZeroPad(k, w)) == Some(-(k as int))
  {
    ZeroPadValue(k, w);
    assert |Decimal(k)| >= 1;
    ParseMinusDigits(ZeroPad(k, w), k);
  }

  lemma ParseZeroPad(n: nat, width: nat)
    ensures ParseInt(ZeroPad(n, width)) == Some(n)
  {
    ZeroPadValue(n, width);
  }

  /** `int("-" + d)` for a run of digits `d` is minus its value. */
  lemma ParseMinusDigits(d: string, v: nat)
    requires |d| > 0 && AllDigits(d) && DigitsValue(d) == v
    ensures ParseInt("-" + d) == Some(-(v as int))
  {
    var t := "-" + d;
    MinusTrimmed(d);
    assert Strip(t) == t;
    assert t[0] == '-' && t[1..] == d;
  }

  lemma MinusTrimmed(d: string)
    requires |d| > 0 && AllDigits(d)
    ensures Trimmed("-" + d)
  {
    var t := "-" + d;
    assert t[|t| - 1] == d[|d| - 1];
    DigitNotSpace(d[|d| - 1]);
    assert t[0] == '-';
  }

  lemma SplitNegative()
    ensures SplitSeconds(-1.5) == Clock(-1, 59, 58, -500)
  {
    assert FloorDiv(-1.5, 3600.0) == -1;
    assert FloatMod(-1.5, 3600.0) == 3598.5;
    assert FloorDiv(3598.5, 60.0) == 59;
    assert FloorDiv(-1.5, 60.0) == -1;
    assert FloatMod(-1.5, 60.0) == 58.5;
    assert Trunc(-1.5) == -1;
  }

  lemma RenderNegative()
    ensures Render(Clock(-1, 59, 58, -500)) == "-1:59:58,-500"
  {
    PadNegativeHour();
    PadTwoDigits(59);
    PadTwoDigits(58);
    PadNegativeMillis();
  }

  lemma PadNegativeHour()
    ensures PadInt(-1, 2) == "-1"
  {
    assert ZeroPad(1, 1) == "1";
  }

  lemma PadTwoDigits(n: nat)
    requires 10 <= n < 100
    ensures PadInt(n, 2) == [DigitChar(n / 10), DigitChar(n % 10)]
  {
    assert Decimal(n / 10) == [DigitChar(n / 10)];
  }

  lemma PadNegativeMillis()
    ensures PadInt(-500, 3) == "-500"
  {
    assert Decimal(5) == "5";
    assert Decimal(50) == "50";
    assert Decimal(500) == "500";
  }
}

=== FILE: Translation.dfy ===
/**
 * Translation with a fallback: the translation service is a parameter that
 * answers a target code and a text (or a list of texts) with a translation,
 * or with `None` when it raises. A failed call leaves the input as it was.
 */
module Translation {
  import opened Wrappers
  import opened Languages

  /** The single-text service: target code and text to a translation, `None` on an exception. */
  type Translator = (string, string) -> Option<string>

  /** The list service: target code and texts to translated texts, `None` on an exception. */
  type BatchTranslator = (string, seq<string>) -> Option<seq<string>>

  /** `translate_text(text, target_language)`. */
  function TranslateText(service: Translator, text: string, language: Option<string>): (r: string)
    ensures service(LanguageCode(language), text).None? ==> r == text
    ensures service(LanguageCode(language), text).Some? ==> r == service(LanguageCode(language), text).value
  {
    service(LanguageCode(language), text).GetOr(text)
  }

  /** `batch_translate_texts(texts, target_language)`. */
  function BatchTranslate(service: BatchTranslator, texts: seq<string>, language: Option<string>): (r: seq<string>)
    ensures service(LanguageCode(language), texts).None? ==> r == texts
    ensures service(LanguageCode(language), texts).Some? ==> r == service(LanguageCode(language), texts).value
  {
    service(LanguageCode(language), texts).GetOr(texts)
  }

  /** A service that always fails leaves every text, and every list of texts, exactly as it was. */
  lemma FailingServiceIsIdentity(single: Translator, batch: BatchTranslator, text: string, texts: seq<string>, language: Option<string>)
    requires forall code, t :: single(code, t).None?
    requires forall code, ts :: batch(code, ts).None?
    ensures TranslateText(single, text, language) == text
    ensures |BatchTranslate(batch, texts, language)| == |texts|
    ensures forall i :: 0 <= i < |texts| ==> BatchTranslate(batch, texts, language)[i] == texts[i]
  {
    assert single(LanguageCode(language), text).None?;
    assert batch(LanguageCode(language), texts).None?;
  }

  /** The service is only ever asked for one of the table's two-letter codes. */
  lemma ServiceSeesTableCode(language: Option<string>)
    ensures IsCode(LanguageCode(language))
  {
    var code := LanguageCode(language);
    CodesAreCodes();
  }
}

=== FILE: Utils.dfy ===
/**
 * The shared-utilities copy of `format_timestamp`. It is the same formula
 * as the subtitle module's, written out again over the same fields.
 */
module Utils {
  import opened Strings
  import Timestamp

  /** `format_timestamp(seconds)` of the utilities module. */
  function FormatTimestamp(seconds: real): (r: string)
    ensures r == Timestamp.FormatTimestamp(seconds)
  {
    var h := Timestamp.Trunc(Timestamp.FloorDiv(seconds, 3600.0) as real);
    var m := Timestamp.Trunc(Timestamp.FloorDiv(Timestamp.FloatMod(seconds, 3600.0), 60.0) as real);
    var s := Timestamp.Trunc(Timestamp.FloatMod(seconds, 60.0));
    var ms := Timestamp.Trunc((seconds - Timestamp.Trunc(seconds) as real) * 1000.0);
    PadInt(h, 2) + ":" + PadInt(m, 2) + ":" + PadInt(s, 2) + "," + PadInt(ms, 3)
  }

  /** From zero up to 100 hours the text is always `DD:DD:DD,DDD`. */
  lemma FormatShape(seconds: real)
    requires 0.0 <= seconds < 360000.0
    ensures Timestamp.SrtShape(FormatTimestamp(seconds))
  {
  }

  /**
   * The minutes and seconds printed are always below 60 and the
   * milliseconds strictly between -1000 and 1000, whatever the time; for a
   * time that is not negative the milliseconds print as exactly three digits.
   */
  lemma FieldsBounded(seconds: real)
    ensures var c := Timestamp.SplitSeconds(seconds);
      && 0 <= c.minutes < 60 && 0 <= c.seconds < 60 && -1000 < c.millis < 1000
      && FormatTimestamp(seconds) == Timestamp.Render(c)
    ensures seconds >= 0.0 ==> |PadInt(Timestamp.SplitSeconds(seconds).millis, 3)| == 3
  {
    var c := Timestamp.SplitSeconds(seconds);
    Timestamp.SplitSecondsBounds(seconds);
    Timestamp.FormatRender(seconds);
    if seconds >= 0.0 {
      DecimalLength(c.millis, 3);
    }
  }
}

=== FILE: VideoFiles.dfy ===
/**
 * Recognising video files by extension, and what the upload widget and the
 * drag-and-drop helper do with a list of dropped local paths.
 * Paths follow POSIX `os.path` rules: `/` separates directories.
 */
module VideoFiles {
  import opened Wrappers

  // ---------------------------------------------------------------- os.path.splitext

  /** Last index of `c` in `s[..hi]`, if any. */
  function LastIndexBefore(s: string, c: char, hi: nat): (r: Option<nat>)
    requires hi <= |s|
    ensures r.Some? ==> r.value < hi && s[r.value] == c
    ensures r.Some? ==> forall k :: r.value < k < hi ==> s[k] != c
    ensures r.None? ==> forall k :: 0 <= k < hi ==> s[k] != c
    decreases hi
  {
    if hi == 0 then None
    else if s[hi - 1] == c then Some(hi - 1)
    else LastIndexBefore(s, c, hi - 1)
  }

  /** `s.rfind(c)`. */
  function LastIndex(s: string, c: char): Option<nat> {
    LastIndexBefore(s, c, |s|)
  }

  /** Whether `s[lo..hi]` holds a character other than `.`. */
  function HasNonDot(s: string, lo: nat, hi: nat): (b: bool)
    requires lo <= hi <= |s|
    ensures b <==> exists k :: lo <= k < hi && s[k] != '.'
    decreases hi - lo
  {
    if lo == hi then false else s[lo] != '.' || HasNonDot(s, lo + 1, hi)
  }

  /**
   * The extension `os.path.splitext(p)[1]` returns: from the last dot of the
   * last path component to the end, provided that component has something
   * other than dots in front of that dot; otherwise empty.
   */
  function Extension(p: string): (ext: string)
    ensures ext == "" || ext[0] == '.'
  {
    var dot := LastIndex(p, '.');
    var start := match LastIndex(p, '/') case None => 0 case Some(i) => i + 1;
    if dot.Some? && dot.value >= start && HasNonDot(p, start, dot.value) then p[dot.value..] else ""
  }

  /** The extension is a suffix of the path that starts with a dot and holds no other dot and no slash. */
  lemma ExtensionShape(p: string)
    ensures var ext := Extension(p);
      && |ext| <= |p| && ext == p[|p| - |ext|..]
      && (ext != "" ==> ext[0] == '.' && forall k :: 1 <= k < |ext| ==> ext[k] != '.' && ext[k] != '/')
  {
    var ext := Extension(p);
    if ext != "" {
      var dot := LastIndex(p, '.').value;
      var start := match LastIndex(p, '/') case None => 0 case Some(i) => i + 1;
      assert ext == p[dot..];
      forall k | 1 <= k < |ext|
        ensures ext[k] != '.' && ext[k] != '/'
      {
        assert ext[k] == p[dot + k];
      }
    }
  }

  /** A name with an ordinary stem gets everything from its last dot as extension. */
  lemma ExtensionOfName(stem: string, ext: string)
    requires |stem| > 0 && forall k :: 0 <= k < |stem| ==> stem[k] != '/'
    requires stem[0] != '.'
    requires |ext| > 0 && ext[0] == '.' && forall k :: 1 <= k < |ext| ==> ext[k] != '.' && ext[k] != '/'
    ensures Extension(stem + ext) == ext
  {
    var p := stem + ext;
    assert LastIndex(p, '.') == Some(|stem|) by {
      assert p[|stem|] == '.';
      forall k | |stem| < k < |p|
        ensures p[k] != '.'
      {
        assert p[k] == ext[k - |stem|];
      }
      LastIndexAt(p, '.', |stem|);
    }
    assert LastIndex(p, '/').None? by {
      forall k | 0 <= k < |p|
        ensures p[k] != '/'
      {
        if k < |stem| {
          assert p[k] == stem[k];
        } else {
          assert p[k] == ext[k - |stem|];
        }
      }
    }
    assert p[0] == stem[0];
    assert HasNonDot(p, 0, |stem|);
    assert p[|stem|..] == ext;
  }

  lemma LastIndexAt(s: string, c: char, i: nat)
    requires i < |s| && s[i] == c
    requires forall k :: i < k < |s| ==> s[k] != c
    ensures LastIndex(s, c) == Some(i)
  {
    var r := LastIndex(s, c);
    assert r.Some? && r.value >= i;
  }

  // ---------------------------------------------------------------- is_video_file

  /**
   * `str.lower` on one character, for the characters that matter here: the
   * ASCII capitals and KELVIN SIGN, which lower-cases to `k`.
   */
  function LowerChar(c: char): char {
    if 'A' <= c <= 'Z' then (c as int + 32) as char
    else if c == '\U{212A}' then 'k'
    else c
  }

  function Lower(s: string): (r: string)
    ensures |r| == |s| && forall k :: 0 <= k < |s| ==> r[k] == LowerChar(s[k])
  {
    seq(|s|, k requires 0 <= k < |s| => LowerChar(s[k]))
  }

  /** The four extensions the application accepts. */
  const VideoExtensions: seq<string> := [".mp4", ".mkv", ".mov", ".avi"]

  /** `is_video_file(path)`: the lower-cased extension is one of the four. */
  predicate IsVideoFile(path: string) {
    Lower(Extension(path)) in VideoExtensions
  }

  /** `clip.MP4` is a video: the comparison ignores case. */
  lemma UpperCaseAccepted()
    ensures IsVideoFile("clip.MP4")
  {
    assert "clip.MP4" == "clip" + ".MP4";
    ExtensionOfName("clip", ".MP4");
    assert Lower(".MP4") == ".mp4" == VideoExtensions[0];
  }

  /** Only the last extension counts: `a.txt.mp4` is a video ... */
  lemma LastExtensionAccepted()
    ensures IsVideoFile("a.txt.mp4")
  {
    assert "a.txt.mp4" == "a.txt" + ".mp4";
    ExtensionOfName("a.txt", ".mp4");
    assert Lower(".mp4") == ".mp4" == VideoExtensions[0];
  }

  /** ... and `a.mp4.txt` is not. */
  lemma InnerExtensionIgnored()
    ensures !IsVideoFile("a.mp4.txt")
  {
    assert "a.mp4.txt" == "a.mp4" + ".txt";
    ExtensionOfName("a.mp4", ".txt");
    assert Lower(".txt") == ".txt";
  }

  /** No extension, no video: a bare name, a hidden file named `.mp4`, and a dot in a directory name. */
  lemma NoExtensionRejected()
    ensures !IsVideoFile("movie")
    ensures !IsVideoFile(".mp4")
    ensures !IsVideoFile("clips.mp4/movie")
  {
    assert LastIndex("movie", '.').None?;
    assert Extension(".mp4") == "" by {
      assert LastIndex(".mp4", '/').None?;
      LastIndexAt(".mp4", '.', 0);
    }
    assert Extension("clips.mp4/movie") == "" by {
      var p := "clips.mp4/movie";
      assert LastIndex(p, '/') == Some(9) by {
        LastIndexAt(p, '/', 9);
      }
      assert LastIndex(p, '.') == Some(5) by {
        LastIndexAt(p, '.', 5);
      }
    }
  }

  // ---------------------------------------------------------------- drag and drop

  /**
   * `handle_drag_event`: the local paths of the dropped URLs that are videos,
   * in drop order. An event without URLs has an empty list of paths.
   */
  function FilterVideos(paths: seq<string>): (r: seq<string>)
    ensures |r| <= |paths|
    ensures forall k :: 0 <= k < |r| ==> IsVideoFile(r[k])
    decreases |paths|
  {
    if |paths| == 0 then []
    else if IsVideoFile(paths[0]) then [paths[0]] + FilterVideos(paths[1..])
    else FilterVideos(paths[1..])
  }

  /** `sub` is `full` with some elements left out, the rest in their order. */
  predicate SubsequenceOf(sub: seq<string>, full: seq<string>)
    decreases |full|
  {
    if |sub| == 0 then true
    else if |full| == 0 then false
    else if sub[0] == full[0] then SubsequenceOf(sub[1..], full[1..])
    else SubsequenceOf(sub, full[1..])
  }

  /** The filter keeps every video path and drops only the others, preserving order. */
  lemma {:induction false} FilterVideosSpec(paths: seq<string>)
    ensures SubsequenceOf(FilterVideos(paths), paths)
    ensures forall k :: 0 <= k < |paths| && IsVideoFile(paths[k]) ==> paths[k] in FilterVideos(paths)
    ensures forall p :: p in FilterVideos(paths) ==> p in paths
    decreases |paths|
  {
    if |paths| > 0 {
      FilterVideosSpec(paths[1..]);
      forall k | 0 < k < |paths|
        ensures paths[k] == paths[1..][k - 1]
      {
      }
    }
  }

  /** Filtering splits over concatenation, so dropping two batches filters each. */
  lemma {:induction false} FilterVideosAppend(a: seq<string>, b: seq<string>)
    ensures FilterVideos(a + b) == FilterVideos(a) + FilterVideos(b)
    decreases |a|
  {
    if |a| == 0 {
      assert a + b == b;
    } else {
      assert (a + b)[1..] == a[1..] + b;
      FilterVideosAppend(a[1..], b);
    }
  }

  /** Filtering twice is filtering once. */
  lemma {:induction false} FilterVideosIdempotent(paths: seq<string>)
    ensures FilterVideos(FilterVideos(paths)) == FilterVideos(paths)
    decreases |paths|
  {
    if |paths| > 0 {
      FilterVideosIdempotent(paths[1..]);
    }
  }

  /** No URLs, no paths. */
  lemma FilterVideosEmpty()
    ensures FilterVideos([]) == []
  {
  }

  /** `dragEnterEvent`: accepted exactly when some dropped path is a video. */
  predicate AcceptDrag(paths: seq<string>) {
    exists k :: 0 <= k < |paths| && IsVideoFile(paths[k])
  }

  /** `dropEvent`: the first video path among the dropped ones, if any; at most one is emitted. */
  function DropSelection(paths: seq<string>): (r: Option<string>)
    ensures r.Some? ==> IsVideoFile(r.value) && r.value in paths
    decreases |paths|
  {
    if |paths| == 0 then None
    else if IsVideoFile(paths[0]) then Some(paths[0])
    else DropSelection(paths[1..])
  }

  /** The drop emits the head of the filtered list; the drag is accepted exactly when the drop would emit something. */
  lemma DropIsFirstVideo(paths: seq<string>)
    ensures DropSelection(paths) == (if |FilterVideos(paths)| == 0 then None else Some(FilterVideos(paths)[0]))
    ensures AcceptDrag(paths) <==> DropSelection(paths).Some?
  {
    DropIsFilterHead(paths);
    AcceptIffDrop(paths);
  }

  lemma {:induction false} DropIsFilterHead(paths: seq<string>)
    ensures DropSelection(paths) == (if |FilterVideos(paths)| == 0 then None else Some(FilterVideos(paths)[0]))
    decreases |paths|
  {
    if |paths| > 0 {
      DropIsFilterHead(paths[1..]);
    }
  }

  lemma {:induction false} AcceptIffDrop(paths: seq<string>)
    ensures AcceptDrag(paths) <==> DropSelection(paths).Some?
    decreases |paths|
  {
    if |paths| > 0 && !IsVideoFile(paths[0]) {
      AcceptIffDrop(paths[1..]);
      AcceptTail(paths);
    }
  }

  /** Past a head that is not a video, the drag is accepted exactly when the rest holds a video. */
  lemma AcceptTail(paths: seq<string>)
    requires |paths| > 0 && !IsVideoFile(paths[0])
    ensures AcceptDrag(paths) <==> AcceptDrag(paths[1..])
  {
    if AcceptDrag(paths) {
      var k :| 0 <= k < |paths| && IsVideoFile(paths[k]);
      assert paths[1..][k - 1] == paths[k];
    }
    if AcceptDrag(paths[1..]) {
      var k :| 0 <= k < |paths[1..]| && IsVideoFile(paths[1..][k]);
      assert paths[k + 1] == paths[1..][k];
    }
  }

  /** `open_file_dialog`: a path is emitted only when the dialog returned a non-empty one. */
  function DialogSelection(path: string): (r: Option<string>)
    ensures r.Some? <==> path != ""
    ensures r.Some? ==> r.value == path
  {
    if path != "" then Some(path) else None
  }
}

=== FILE: Wrappers.dfy ===
/** Failure-compatible wrappers shared by every module of the model. */
module Wrappers {

  /** A value that may be absent: Python's `None` versus a present value. */
  datatype Option<+T> = None | Some(value: T) {

    /** The wrapped value, or `default` when there is none. */
    function GetOr(default: T): T {
      match this
      case Some(v) => v
      case None => default
    }
  }
}
